=== FILE: README.md ===
# DSA Visual Lab: the operation trace engine

DSA Visual Lab is one React source file, `src/App.jsx`, with two components:
`DSAVisualLab`, which holds the state, the generators' callers and the
animation engine, and `ArrayVisualizer`, which draws the bars and colours them
(`getBarColor`). It animates array algorithms. The algorithms do not draw
anything themselves. Each generator is a pure function that turns an array,
and a target where one is needed, into a list of operations: COMPARE, SWAP,
MOVE_POINTER, FOUND, NOT_FOUND, COMPLETE, TRAVERSE, and the unused INSERT and
DELETE. A small playback state machine
steps through that list on a timer. A colouring function then paints each bar
from the operation on screen.

This project models that engine in Dafny and proves properties of the model.
It covers:

- the operation vocabulary;
- the five trace generators: bubble sort, linear search, binary search, two
  pointers, and traversal;
- the playback state machine: the animation effect, reset, run, play/pause,
  speed and the current operation;
- the bar colouring;
- the handlers that connect them: the run buttons, which are disabled while
  playing, insert, delete, random array, tab switch and target input.

Each of the four loop generators (bubble sort, linear, binary and
two-pointer search) comes in two forms:

- a recursive function over the loop variables, which is the reference
  reading;
- a method that follows the JavaScript loop statement by statement, proved
  equal to the function.

The properties are proved about the function. Traversal has no loop in the
source, only an `array.map`. It is modelled as a sequence comprehension,
proved equal to a recursive visit of the positions in order
(`Traverse.TraverseIsVisit`).

A trace's meaning for the array is written `Trace.Replay`: the array obtained
by applying the trace's SWAPs in order. The program never applies a trace to
the bars it draws. `Replay` states what the trace records about the
algorithm's own copy.

Modules and files:

| file | module | contents |
|---|---|---|
| `arrays.dfy` | `Arrays` | ascending order, exchanging two bars, bar deletion (`filter`) and insertion |
| `trace.dfy` | `Trace` | `OperationType`, the operation record, terminal operations, counting, replaying a trace on the array |
| `bubble_sort.dfy` | `BubbleSort` | `generateBubbleSortOps` |
| `linear_search.dfy` | `LinearSearch` | `generateLinearSearchOps` |
| `binary_search.dfy` | `BinarySearch` | `generateBinarySearchOps` |
| `two_pointer.dfy` | `TwoPointer` | `generateTwoPointerOps` |
| `traverse.dfy` | `Traverse` | the trace built by `traverseArray` |
| `playback.dfy` | `Playback` | the animation effect, `resetAnimation`, `runAlgorithm`, Play/Pause, speed, `currentOp` |
| `highlight.dfy` | `Highlight` | `getBarColor` |
| `lab.dfy` | `Lab` | component state and handlers |

An operation is `Op(kind, indices, value)`:

- The source leaves `indices` off COMPLETE and NOT_FOUND; here those carry the
  empty sequence.
- A missing `value` is `None`.
- JavaScript numbers are modelled as unbounded integers. Array values and
  targets are integers in the interface.

## Model

| member | source | states |
|---|---|---|
| Trace.KindName | src/App.jsx:6-16 | each `OperationType` member stands for an upper-case identifier string of at least four characters |
| Trace.KindNameInjective | src/App.jsx:6-16 | the nine `OperationType` strings are pairwise distinct, so comparing type strings tells kinds apart exactly |
| Trace.ReplayPermutes | src/App.jsx:30-31 | applying any trace's SWAPs in order only permutes the array: the multiset of values is unchanged |
| Trace.ReplayWithoutSwaps | src/App.jsx:157 | a trace without SWAP leaves the array exactly as it was |
| BubbleSort.BubbleSortOps | src/App.jsx:21-37 | the trace ends with COMPLETE, its only terminal operation |
| BubbleSort.FiveThreeOneTrace | src/App.jsx:21-37 | on `[5, 3, 1]`: COMPARE/SWAP `[0,1]`, COMPARE/SWAP `[1,2]`, COMPARE/SWAP `[0,1]`, COMPLETE; pairs are compared left to right and each pass stops one earlier |
| BubbleSort.BubbleSortTraceBounds | src/App.jsx:21-37 | every operation before the last is an adjacent-pair COMPARE or SWAP `[j, j+1]` inside the array; the trace ends with its only terminal operation, COMPLETE; for `n <= 1` the trace is just COMPLETE |
| BubbleSort.BubbleSortCompareCount | src/App.jsx:26-28 | the trace holds exactly `n(n-1)/2` COMPAREs and one COMPLETE |
| BubbleSort.BubbleSortSwapsFollowCompare | src/App.jsx:28-30 | every SWAP directly follows the COMPARE of the same pair |
| BubbleSort.BubbleSortSwapsExactlyWhenInverted | src/App.jsx:28-32 | with the SWAPs applied in order from the input, a SWAP follows a COMPARE of `j, j+1` exactly when the copy has `copy[j] > copy[j+1]` at that moment, so equal values are never swapped |
| BubbleSort.EqualPairNotSwapped | src/App.jsx:29 | on `[3, 3]` the trace is one COMPARE and COMPLETE: the strict test leaves equal values alone |
| BubbleSort.BubbleSortReplaySorts | src/App.jsx:21-37 | replaying the trace on the input yields an ascending permutation of it |
| BubbleSort.InnerPassBubblesMax | src/App.jsx:27-33 | one inner pass carries the largest of `copy[0..bound]` to position `bound` and touches nothing beyond it |
| BubbleSort.OuterPassesSort | src/App.jsx:26-34 | with a sorted, partitioned suffix, the remaining outer passes leave the copy ascending |
| BubbleSort.TriangleClosedForm | src/App.jsx:26-27 | the inner loop lengths `(n-1) + ... + 1` add up to `n(n-1)/2` |
| BubbleSort.InnerLoop | src/App.jsx:27-33 | the inner `for` loop as written computes the same operations and copy as the recursive pass |
| BubbleSort.GenerateBubbleSortOps | src/App.jsx:21-37 | the loops as written produce the reference trace, and replaying it sorts the input as a permutation |
| LinearSearch.LinearSearchOps | src/App.jsx:39-51 | the trace is never empty and ends with a terminal operation |
| LinearSearch.LinearSearchFindsFirst | src/App.jsx:39-51 | when `f` is the first position holding the target: `f+1` probe pairs MOVE_POINTER `[i]`, COMPARE `[i]` with the target, for `i = 0..f`, then FOUND `[f]`; `f+1` COMPAREs in all |
| LinearSearch.LinearSearchMissing | src/App.jsx:41-50 | when the target is absent: one probe pair per position, then NOT_FOUND; `n` COMPAREs; the empty array gives just NOT_FOUND |
| LinearSearch.LinearSearchWellFormed | src/App.jsx:39-51 | all indices are in range, the trace ends with its only terminal operation, and it ends with FOUND exactly when the target occurs |
| LinearSearch.GenerateLinearSearchOps | src/App.jsx:39-51 | the loop with its early return produces the reference trace, in range, singly terminated, FOUND iff the target occurs |
| BinarySearch.Mid | src/App.jsx:59 | the midpoint is `(left+right)/2` rounded down (`2·mid <= left+right <= 2·mid+1`), lies in the window, and neither half beside it holds more than half the window |
| BinarySearch.BinarySearchOps | src/App.jsx:53-74 | the trace is never empty and ends with a terminal operation |
| BinarySearch.SevenInOneToNine | src/App.jsx:53-74 | on `[1, 3, 5, 7, 9]` for 7: window `[0,4]` probes 2, window `[3,4]` probes 3 (rounded down), then FOUND `[3]` |
| BinarySearch.BinarySearchSound | src/App.jsx:53-74 | on any input: every MOVE_POINTER is `[left, right, mid]` with `0 <= left <= mid <= right < n`, every COMPARE carries the target, FOUND names a position holding the target, and the trace ends with its only terminal operation |
| BinarySearch.BinarySearchFollowsLoop | src/App.jsx:53-74 | on any input the trace is the loop, pair by pair: the first window is `[0, n-1]`; each MOVE_POINTER's third index is the floor midpoint of its window and the next COMPARE probes exactly it; the next window is `[mid+1, right]` when `arr[mid]` is below the target and `[left, mid-1]` when above; the trace ends with FOUND `[mid]` on a hit, or NOT_FOUND once the window would empty (or at once for an empty array) |
| BinarySearch.SearchFromComplete | src/App.jsx:63-72 | on ascending input, with no occurrence outside the window, NOT_FOUND means the target is absent |
| BinarySearch.BinarySearchComplete | src/App.jsx:53-74 | on ascending input the trace ends with FOUND exactly when the target occurs |
| BinarySearch.BinarySearchLogarithmic | src/App.jsx:58-70 | for `n < 2^k` the trace has at most `2k+1` operations |
| BinarySearch.GenerateBinarySearchOps | src/App.jsx:53-74 | the loop with its early return produces the reference trace; it stays in range, ends with its only terminal operation, FOUND only when the target occurs, and on ascending input exactly then |
| TwoPointer.TwoPointerOps | src/App.jsx:76-97 | the trace is never empty and ends with a terminal operation |
| TwoPointer.TwoPointerSound | src/App.jsx:76-97 | on any input: every operation names an ordered pair `0 <= l < r < n` (NOT_FOUND none), every COMPARE carries its pair's sum, FOUND names a pair summing to the target, and the trace ends with its only terminal operation |
| TwoPointer.TwoPointerFollowsLoop | src/App.jsx:76-97 | on any input the trace is the loop, pair by pair: the first MOVE_POINTER is `[0, n-1]` when `n >= 2`; each COMPARE names the same pair as the MOVE_POINTER before it, with the pair's sum; the next pair is `[l+1, r]` when the sum is below the target and `[l, r-1]` when above; the trace ends with FOUND on the pair meeting the target, or NOT_FOUND once the pointers meet (or at once when `n < 2`) |
| TwoPointer.OneTwoThreeForFive | src/App.jsx:76-97 | on `[1, 2, 3]` for 5: pair `[0,2]` sums to 4, so `left` moves up; pair `[1,2]` sums to 5, then FOUND `[1,2]` |
| TwoPointer.PairFromComplete | src/App.jsx:86-95 | on ascending input, with no pair outside the pointers summing to the target, NOT_FOUND means no pair of distinct positions sums to it |
| TwoPointer.TwoPointerComplete | src/App.jsx:76-97 | on ascending input the trace ends with FOUND exactly when two distinct positions sum to the target |
| TwoPointer.TwoPointerLinear | src/App.jsx:81-94 | at most `2n-1` operations for `n >= 2`; for `n <= 1` the loop never runs and the trace is NOT_FOUND alone |
| TwoPointer.HasPairPermutation | src/App.jsx:182-185 | whether a pair sums to the target does not depend on the order of the values, so sorting first changes no answer |
| TwoPointer.GenerateTwoPointerOps | src/App.jsx:76-97 | the loop with its early return produces the reference trace; in range, singly terminated, FOUND only for a real pair, and on ascending input exactly when one exists |
| Traverse.TraverseOps | src/App.jsx:157 | one operation per bar, every index names a bar, and none is terminal |
| Traverse.TraverseIsVisit | src/App.jsx:157 | the `map` form visits positions `0, 1, ..., n-1` in order, one TRAVERSE each, like a loop |
| Traverse.TraverseInRange | src/App.jsx:157 | every index names a bar and there is no terminal operation at all; an empty array gives an empty trace |
| Traverse.TraverseCount | src/App.jsx:157 | exactly one TRAVERSE per bar |
| Traverse.TraverseKeepsArray | src/App.jsx:157 | replaying the traversal leaves the array unchanged |
| Playback.Tick | src/App.jsx:114-123 | one effect run advances the step by exactly one iff playing and before the last operation, and then keeps playing; at or past the last operation it stops playing; it never starts playing, and a paused player is left exactly as it is; the trace and delay stay; the step stays within `-1..last` |
| Playback.Reset | src/App.jsx:125-129 | paused at step -1 with the trace and delay kept |
| Playback.Run | src/App.jsx:131-136 | the new trace is loaded, at step 0, playing |
| Playback.Toggle | src/App.jsx:306-310 | Play/Pause flips playing except when no trace is loaded (button disabled); step and trace stay |
| Playback.SetSpeed | src/App.jsx:233-237 | only the delay changes |
| Playback.CurrentOp | src/App.jsx:139-141 | there is a current operation exactly when `0 <= step < length`, and it is the one at the step |
| Playback.SpeedIrrelevant | src/App.jsx:114-123 | changing the delay commutes with the effect: the delay affects only timing |
| Playback.ToggleTwice | src/App.jsx:307 | pressing Play/Pause twice restores the state |
| Playback.ResetSettles | src/App.jsx:125-129 | reset is idempotent, shows no operation, and the effect leaves a reset player alone |
| Playback.RunEmptyStops | src/App.jsx:119-120 | running an empty trace stops at the first effect, at step 0, showing nothing |
| Playback.TicksFrom | src/App.jsx:114-123 | from a playing step `j`, `k` effects reach step `min(j+k, last)` and still play iff `j+k < length` |
| Playback.PlayThrough | src/App.jsx:114-136 | after `runAlgorithm` on `n >= 1` operations, `k` effects show step `min(k, n-1)` and the animation plays for exactly `n` effects |
| Playback.ShowsEveryOpInOrder | src/App.jsx:114-141 | after `j` effects from `runAlgorithm`, operation `j` is on screen: every operation is shown, in order |
| Playback.ResumeFromReset | src/App.jsx:125-129 | Play after a reset starts from step -1 and the first effect shows operation 0 |
| Playback.NoStepSkipped | src/App.jsx:114-118 | every step up to the current one was on screen after some earlier number of effects |
| Highlight.BarColor | src/App.jsx:333-345 | no current operation gives the default colour; a non-default colour only ever goes to a bar the operation names |
| Highlight.Hex | src/App.jsx:334-344 | every colour is a `#rrggbb` literal of six lower-case hex digits |
| Highlight.HexInjective | src/App.jsx:334-344 | the six colours are pairwise distinct |
| Highlight.BarColorIsTable | src/App.jsx:333-345 | the chain of tests equals a per-kind table lookup for named bars, so the order of the tests does not matter |
| Highlight.HighlightedIff | src/App.jsx:336-341 | a bar is highlighted exactly when the operation names it and its kind is FOUND, COMPARE, SWAP, TRAVERSE or MOVE_POINTER; the colour identifies the kind |
| Highlight.TraverseLightsOneBar | src/App.jsx:156-158 | during a traversal, after `k` effects exactly bar `k` is purple and all others are default |
| Highlight.ResetClearsColors | src/App.jsx:125-129 | after a reset every bar has the default colour |
| Arrays.DeleteAt | src/App.jsx:150-154 | deleting a valid index shortens the array by one, keeps the bars before it and shifts the rest down, and removes exactly that value; an index naming no bar changes nothing |
| Arrays.DeleteAtIsFilter | src/App.jsx:151 | the deletion equals the element-by-element `filter((_, i) => i !== index)` |
| Arrays.InsertLast | src/App.jsx:144-148 | the new bar is appended at the end and the others stay |
| Arrays.DeleteUndoesInsert | src/App.jsx:144-154 | deleting the bar just inserted restores the array |
| Lab.StartState | src/App.jsx:103-110 | the first render holds seven bars of valid values and target 22 on the Arrays tab, with nothing loaded, step -1, paused, at the normal delay, so no operation is on screen |
| Lab.Launch | src/App.jsx:247-298 | a run button does nothing while playing (disabled), otherwise hands its trace to `runAlgorithm` |
| Lab.RunTraverse | src/App.jsx:156-159 | nothing while playing; otherwise `runAlgorithm` on one TRAVERSE per bar, with bars, target and tab kept |
| Lab.RunBubbleSort | src/App.jsx:162-165 | nothing while playing; otherwise `runAlgorithm` on the bubble sort trace of the bars, which stay as they were, with target and tab kept |
| Lab.RunLinearSearch | src/App.jsx:167-170 | nothing while playing; otherwise `runAlgorithm` on the linear search of the unsorted bars for the target, with bars, target and tab kept |
| Lab.RunBinarySearch | src/App.jsx:172-179 | nothing while playing; otherwise the array on display becomes its ascending rearrangement, and that is what is searched; target and tab are kept |
| Lab.RunTwoPointer | src/App.jsx:181-188 | nothing while playing; otherwise the array on display becomes its ascending rearrangement, and that is what is scanned; target and tab are kept |
| Lab.InsertBar | src/App.jsx:144-148 | appends a bar; the animation is left as it is |
| Lab.DeleteBar | src/App.jsx:150-154 | drops the bar; the animation is left as it is |
| Lab.RandomArray | src/App.jsx:190-194 | eight new bars and a reset; target and tab are kept |
| Lab.SwitchTab | src/App.jsx:207 | switching tabs resets the animation; bars and target are kept |
| Lab.SetTarget | src/App.jsx:262 | only the target changes: bars, player and tab are kept |
| Lab.BubbleSortRunSorts | src/App.jsx:162-165 | applying the loaded trace's SWAPs in order to the array it came from gives an ascending permutation of it; the bars on display are not changed |
| Lab.LinearSearchRunAnswers | src/App.jsx:167-170 | the loaded linear search trace ends with FOUND iff the target is in the array |
| Lab.BinarySearchRunAnswers | src/App.jsx:172-179 | because the array is sorted first, the binary search ends with FOUND iff the target is in the user's array, whatever its order |
| Lab.TwoPointerRunAnswers | src/App.jsx:181-188 | because the array is sorted first, the two-pointer trace ends with FOUND iff two distinct positions of the user's array sum to the target |
| Lab.HandlersKeepValid | src/App.jsx:131-262 | every handler (the five run buttons, insert, delete, random array, tab switch and target input) keeps the step within `-1..last` |

## Left out

- Rendering: the JSX layout, styles, emoji, bar heights (`val / maxVal * 200`, floating point), and the message line with its texts (`Inserted …`, `Deleted element at index …`). `resetAnimation` also clears the message, which the model does not track.
- Timers: `setTimeout` and `clearTimeout` are not modelled. One `Tick` is one run of the effect in which the pending timer fires. A timer cancelled because a dependency changed first is the same as that run not having happened yet. The run that stops playing at the last step (`src/App.jsx:119-120`) sets no timer and follows the last advance with no delay. In the model, the state (last step, playing) lasts until the next `Tick`, and `Toggle` or `Launch` can act on it in between. In the program, only an event handled before React re-runs the effect can see that state.
- The 100 ms delay between showing the sorted array and running the binary search or two-pointer trace: the two are modelled as one step. In the program, the run buttons stay enabled during the delay, because `isPlaying` is still false. A reset, a tab switch or a new array does not cancel the pending `setTimeout` (`src/App.jsx:175-178`, `src/App.jsx:184-187`). So its `runAlgorithm` can still start after a reset or tab switch, and two quick presses start it twice, the second replacing the first. The model does not interleave other events into the delay.
- `Array.prototype.sort((a, b) => a - b)` is not re-implemented. Its result is a parameter of `Lab.RunBinarySearch` and `Lab.RunTwoPointer`, required to be an ascending permutation of the array.
- `Math.random` is not modelled: the inserted value and the eight random values are parameters constrained to `0..99`.
- JavaScript number semantics are not modelled: overflow past 2^53 in a two-pointer sum, non-integer or NaN targets from `Number(e.target.value)`. Values are unbounded integers.
- React batching is not modelled: the state updates of one handler are applied together, as React does within an event handler.
- Playback.SetSpeed: any delay is accepted; the selector only ever offers 1000, 500 and 200 milliseconds, and only the starting delay 500 is a constant (`Normal`).

Behaviour the model follows as the code has it, though a reader might expect otherwise:

- The traversal trace has no terminal operation, and an empty array gives an empty trace.
- `runAlgorithm` on an empty trace sets step 0, one past the end. The player's invariant therefore allows step 0 for an empty trace, and the first effect stops it there.
- Inserting or deleting a bar does not pause or reset a running animation.
- Bubble sort leaves the bars unsorted on screen: `runBubbleSort` never stores the sorted copy, and only the colours follow the trace. Binary search and two pointers, by contrast, replace the bars with their sorted copy.

=== FILE: arrays.dfy ===
/** Plain integer arrays as the visualiser holds them: ascending order, the
    two-position exchange the sort performs on its private copy, and the
    removal of one bar. JavaScript numbers are modelled as unbounded `int`. */
module Arrays {

  /** `a` is in ascending (non-decreasing) order. */
  predicate Sorted(a: seq<int>) {
    forall x, y :: 0 <= x < y < |a| ==> a[x] <= a[y]
  }

  /** Exchanges positions `i` and `j` (`[a[i], a[j]] = [a[j], a[i]]`). */
  function Exchange(a: seq<int>, i: nat, j: nat): (r: seq<int>)
    requires i < |a| && j < |a|
    ensures |r| == |a|
  {
    a[i := a[j]][j := a[i]]
  }

  /** An exchange only moves values around: it is a permutation, and it
      touches no position other than `i` and `j`. */
  lemma ExchangePermutes(a: seq<int>, i: nat, j: nat)
    requires i < |a| && j < |a|
    ensures Exchange(a, i, j)[i] == a[j] && Exchange(a, i, j)[j] == a[i]
    ensures forall k :: 0 <= k < |a| && k != i && k != j ==> Exchange(a, i, j)[k] == a[k]
    ensures multiset(Exchange(a, i, j)) == multiset(a)
  {
  }

  /** `array.filter((_, i) => i !== index)`: drops the bar at `index`, and
      leaves the array as it is when `index` names no bar. */
  function DeleteAt(a: seq<int>, index: int): (r: seq<int>)
    ensures 0 <= index < |a| ==> |r| == |a| - 1
    ensures !(0 <= index < |a|) ==> r == a
    ensures 0 <= index < |a| ==> forall k :: 0 <= k < index ==> r[k] == a[k]
    ensures 0 <= index < |a| ==> forall k :: index <= k < |r| ==> r[k] == a[k + 1]
    ensures 0 <= index < |a| ==> multiset(r) + multiset{a[index]} == multiset(a)
  {
    if 0 <= index < |a| then
      assert a == a[..index] + [a[index]] + a[index + 1..];
      a[..index] + a[index + 1..]
    else a
  }

  /** `array.filter((_, i) => i !== index)` element by element, from position
      `i` on: the reference reading of the bar deletion. */
  function KeepOthersFrom(a: seq<int>, index: int, i: nat): seq<int>
    requires i <= |a|
    decreases |a| - i
  {
    if i == |a| then []
    else (if i != index then [a[i]] else []) + KeepOthersFrom(a, index, i + 1)
  }

  /** Positions before `index` are kept, then the filter skips `index`. */
  lemma {:induction false} KeepOthersFromSuffix(a: seq<int>, index: int, i: nat)
    requires i <= |a|
    ensures index < i ==> KeepOthersFrom(a, index, i) == a[i..]
    ensures i <= index < |a| ==> KeepOthersFrom(a, index, i) == a[i..index] + a[index + 1..]
    ensures |a| <= index ==> KeepOthersFrom(a, index, i) == a[i..]
    decreases |a| - i
  {
    if i < |a| {
      KeepOthersFromSuffix(a, index, i + 1);
      assert a[i..] == [a[i]] + a[i + 1..];
      if i < index < |a| {
        assert a[i..index] == [a[i]] + a[i + 1..index];
      }
    }
  }

  /** The bar deletion agrees with the element-by-element filter. */
  lemma DeleteAtIsFilter(a: seq<int>, index: int)
    ensures DeleteAt(a, index) == KeepOthersFrom(a, index, 0)
  {
    KeepOthersFromSuffix(a, index, 0);
  }

  /** `[...array, newVal]`: the bar inserted at the end. */
  function InsertLast(a: seq<int>, v: int): (r: seq<int>)
    ensures |r| == |a| + 1 && r[|a|] == v
    ensures forall k :: 0 <= k < |a| ==> r[k] == a[k]
  {
    a + [v]
  }

  /** Deleting the bar just inserted gives back the array. */
  lemma DeleteUndoesInsert(a: seq<int>, v: int)
    ensures DeleteAt(InsertLast(a, v), |a|) == a
  {
    assert InsertLast(a, v)[..|a|] == a;
  }
}

=== FILE: binary_search.dfy ===
/** `generateBinarySearchOps`: halve the window `[left, right]` around
    `mid = floor((left + right) / 2)`, announcing each window with a
    MOVE_POINTER `[left, right, mid]` and a COMPARE of `mid` against the target,
    until FOUND([mid]) or an empty window and NOT_FOUND. The callers sort the
    array first; the model takes sortedness as a hypothesis only where the
    result depends on it. */
module BinarySearch {
  import opened Arrays
  import opened Trace

  /** The two operations emitted for the window `[left, right]`. */
  function ProbeOps(left: int, right: int, mid: int, target: int): seq<Op> {
    [Op(MovePointer, [left, right, mid], None), Op(Compare, [mid], Some(target))]
  }

  /** `Math.floor((left + right) / 2)`; for a non-negative sum the floor is
      Dafny's `/`. Both halves either side of it hold at most half of the
      window. */
  function Mid(left: nat, right: int): (mid: int)
    requires left <= right
    ensures 2 * mid <= left + right <= 2 * mid + 1
    ensures left <= mid <= right
    ensures 2 * (right - mid) <= right - left + 1
    ensures 2 * (mid - left) <= right - left + 1
  {
    (left + right) / 2
  }

  /** The loop `while (left <= right)` from the window `[left, right]`. */
  function SearchFrom(arr: seq<int>, target: int, left: nat, right: int): seq<Op>
    requires right < |arr|
    decreases right - left + 1
  {
    if left > right then [NotFoundOp]
    else
      var mid := Mid(left, right);
      if arr[mid] == target then ProbeOps(left, right, mid, target) + [Op(Found, [mid], None)]
      else if arr[mid] < target then ProbeOps(left, right, mid, target) + SearchFrom(arr, target, mid + 1, right)
      else ProbeOps(left, right, mid, target) + SearchFrom(arr, target, left, mid - 1)
  }

  /** The whole trace for `arr` and `target`: probe pairs, then a single
      FOUND or NOT_FOUND. */
  function BinarySearchOps(arr: seq<int>, target: int): (t: seq<Op>)
    ensures |t| > 0 && IsTerminal(t[|t| - 1].kind)
  {
    SearchFromTerminates(arr, target, 0, |arr| - 1);
    SearchFrom(arr, target, 0, |arr| - 1)
  }

  /** What the loop emits after the probe pair of a non-empty window. */
  function AfterProbe(arr: seq<int>, target: int, left: nat, right: int): seq<Op>
    requires left <= right < |arr|
  {
    var mid := Mid(left, right);
    if arr[mid] == target then [Op(Found, [mid], None)]
    else if arr[mid] < target then SearchFrom(arr, target, mid + 1, right)
    else SearchFrom(arr, target, left, mid - 1)
  }

  lemma SearchFromUnfold(arr: seq<int>, target: int, left: nat, right: int)
    requires left <= right < |arr|
    ensures SearchFrom(arr, target, left, right)
            == ProbeOps(left, right, Mid(left, right), target) + AfterProbe(arr, target, left, right)
  {
  }

  /** What each kind of operation may say in a binary-search trace over `arr`:
      a MOVE_POINTER `[left, right, mid]` has `0 <= left <= mid <= right < n`,
      a COMPARE names one position and carries the target, a FOUND names one
      position holding the target, and a NOT_FOUND names none. */
  predicate ProbeOpFits(op: Op, arr: seq<int>, target: int) {
    match op.kind
    case MovePointer =>
      |op.indices| == 3 && 0 <= op.indices[0] <= op.indices[2] <= op.indices[1] < |arr|
    case Compare =>
      |op.indices| == 1 && 0 <= op.indices[0] < |arr| && op.value == Some(target)
    case Found =>
      |op.indices| == 1 && 0 <= op.indices[0] < |arr| && arr[op.indices[0]] == target
    case NotFound => op.indices == []
    case _ => false
  }

  predicate AllProbeOpsFit(t: seq<Op>, arr: seq<int>, target: int) {
    forall k :: 0 <= k < |t| ==> ProbeOpFits(t[k], arr, target)
  }

  lemma AllProbeOpsFitAppend(t1: seq<Op>, t2: seq<Op>, arr: seq<int>, target: int)
    requires AllProbeOpsFit(t1, arr, target) && AllProbeOpsFit(t2, arr, target)
    ensures AllProbeOpsFit(t1 + t2, arr, target)
  {
    forall k | 0 <= k < |t1 + t2| ensures ProbeOpFits((t1 + t2)[k], arr, target) {
      if k < |t1| { assert (t1 + t2)[k] == t1[k]; } else { assert (t1 + t2)[k] == t2[k - |t1|]; }
    }
  }

  lemma AllProbeOpsFitInBounds(t: seq<Op>, arr: seq<int>, target: int)
    requires AllProbeOpsFit(t, arr, target)
    ensures IndicesBelow(t, |arr|)
  {
    forall k, x | 0 <= k < |t| && 0 <= x < |t[k].indices| ensures 0 <= t[k].indices[x] < |arr| {
      assert ProbeOpFits(t[k], arr, target);
    }
  }

  /** The probe pair of a window fits, whatever the array holds. */
  lemma ProbePairFits(arr: seq<int>, target: int, left: nat, right: int, mid: int)
    requires left <= mid <= right < |arr|
    ensures AllProbeOpsFit(ProbeOps(left, right, mid, target), arr, target)
  {
    var p := ProbeOps(left, right, mid, target);
    assert ProbeOpFits(p[0], arr, target) && ProbeOpFits(p[1], arr, target);
  }

  lemma {:induction false} SearchFromFits(arr: seq<int>, target: int, left: nat, right: int)
    requires right < |arr|
    ensures AllProbeOpsFit(SearchFrom(arr, target, left, right), arr, target)
    decreases right - left + 1
  {
    if left <= right {
      var mid := Mid(left, right);
      var after := AfterProbe(arr, target, left, right);
      SearchFromUnfold(arr, target, left, right);
      ProbePairFits(arr, target, left, right, mid);
      if arr[mid] == target {
        assert after == [Op(Found, [mid], None)];
        assert ProbeOpFits(after[0], arr, target);
      } else if arr[mid] < target {
        assert after == SearchFrom(arr, target, mid + 1, right);
        SearchFromFits(arr, target, mid + 1, right);
      } else {
        assert after == SearchFrom(arr, target, left, mid - 1);
        SearchFromFits(arr, target, left, mid - 1);
      }
      AllProbeOpsFitAppend(ProbeOps(left, right, mid, target), after, arr, target);
    } else {
      assert AllProbeOpsFit([NotFoundOp], arr, target);
    }
  }

  lemma {:induction false} SearchFromTerminates(arr: seq<int>, target: int, left: nat, right: int)
    requires right < |arr|
    ensures EndsWithSingleTerminal(SearchFrom(arr, target, left, right))
    decreases right - left + 1
  {
    if left <= right {
      var mid := Mid(left, right);
      var after := AfterProbe(arr, target, left, right);
      SearchFromUnfold(arr, target, left, right);
      if arr[mid] == target {
        assert after == [Op(Found, [mid], None)];
      } else if arr[mid] < target {
        assert after == SearchFrom(arr, target, mid + 1, right);
        SearchFromTerminates(arr, target, mid + 1, right);
      } else {
        assert after == SearchFrom(arr, target, left, mid - 1);
        SearchFromTerminates(arr, target, left, mid - 1);
      }
      assert NoTerminal(ProbeOps(left, right, mid, target));
      EndsWithSingleTerminalPrepend(ProbeOps(left, right, mid, target), after);
    }
  }

  /** No position outside the window `left..right` holds the target. */
  predicate AbsentOutside(arr: seq<int>, target: int, left: int, right: int) {
    forall k :: 0 <= k < |arr| && (k < left || right < k) ==> arr[k] != target
  }

  /** On ascending input a probe below the target moves the left end past it
      without losing an occurrence. */
  lemma NarrowUp(arr: seq<int>, target: int, left: int, right: int, mid: nat)
    requires mid < |arr| && Sorted(arr) && arr[mid] < target
    requires AbsentOutside(arr, target, left, right)
    ensures AbsentOutside(arr, target, mid + 1, right)
  {
  }

  /** On ascending input a probe above the target moves the right end below it
      without losing an occurrence. */
  lemma NarrowDown(arr: seq<int>, target: int, left: int, right: int, mid: nat)
    requires mid < |arr| && Sorted(arr) && arr[mid] > target
    requires AbsentOutside(arr, target, left, right)
    ensures AbsentOutside(arr, target, left, mid - 1)
  {
  }

  /** An empty window with nothing outside it means the target is absent. */
  lemma EmptyWindowAbsent(arr: seq<int>, target: int, left: int, right: int)
    requires right < left && AbsentOutside(arr, target, left, right)
    ensures target !in arr
  {
  }

  /** A non-empty window's search ends the way its continuation ends. */
  lemma SearchFromLast(arr: seq<int>, target: int, left: nat, right: int)
    requires left <= right < |arr|
    ensures var t := SearchFrom(arr, target, left, right);
      var after := AfterProbe(arr, target, left, right);
      |after| > 0 && t[|t| - 1] == after[|after| - 1]
  {
    SearchFromUnfold(arr, target, left, right);
    SearchFromTerminates(arr, target, left, right);
  }

  /** On ascending input, a search that ends with NOT_FOUND has ruled out every
      position, given that the positions outside the window were ruled out
      before it started. */
  lemma {:induction false} SearchFromComplete(arr: seq<int>, target: int, left: nat, right: int)
    requires right < |arr| && Sorted(arr)
    requires AbsentOutside(arr, target, left, right)
    ensures var t := SearchFrom(arr, target, left, right);
      t[|t| - 1].kind == NotFound ==> target !in arr
    decreases right - left + 1
  {
    if left <= right {
      var mid := Mid(left, right);
      var after := AfterProbe(arr, target, left, right);
      SearchFromLast(arr, target, left, right);
      if arr[mid] == target {
        assert after == [Op(Found, [mid], None)];
      } else if arr[mid] < target {
        assert after == SearchFrom(arr, target, mid + 1, right);
        NarrowUp(arr, target, left, right, mid);
        SearchFromComplete(arr, target, mid + 1, right);
      } else {
        assert after == SearchFrom(arr, target, left, mid - 1);
        NarrowDown(arr, target, left, right, mid);
        SearchFromComplete(arr, target, left, mid - 1);
      }
    } else {
      EmptyWindowAbsent(arr, target, left, right);
    }
  }

  function Pow2(k: nat): (p: nat)
    ensures p > 0
  {
    if k == 0 then 1 else 2 * Pow2(k - 1)
  }

  /** A window of fewer than `2^k` positions leaves, on either side of its
      midpoint, fewer than `2^(k-1)`. */
  lemma HalvesFit(left: nat, right: int, k: nat)
    requires left <= right && right - left + 1 < Pow2(k)
    ensures k > 0
    ensures right - (Mid(left, right) + 1) + 1 < Pow2(k - 1)
    ensures Mid(left, right) - 1 - left + 1 < Pow2(k - 1)
  {
    assert Pow2(k) == 2 * Pow2(k - 1);
  }

  /** Each round at least halves the window, so a window of fewer than `2^k`
      positions is settled within `k` probe pairs. */
  lemma {:induction false} SearchFromLogarithmic(arr: seq<int>, target: int, left: nat, right: int, k: nat)
    requires right < |arr| && right - left + 1 < Pow2(k)
    ensures |SearchFrom(arr, target, left, right)| <= 2 * k + 1
    decreases k
  {
    if left <= right {
      var mid := Mid(left, right);
      var after := AfterProbe(arr, target, left, right);
      SearchFromUnfold(arr, target, left, right);
      assert |SearchFrom(arr, target, left, right)| == 2 + |after|;
      HalvesFit(left, right, k);
      if arr[mid] < target {
        assert after == SearchFrom(arr, target, mid + 1, right);
        SearchFromLogarithmic(arr, target, mid + 1, right, k - 1);
      } else if arr[mid] > target {
        assert after == SearchFrom(arr, target, left, mid - 1);
        SearchFromLogarithmic(arr, target, left, mid - 1, k - 1);
      }
    }
  }

  /** Without any assumption on the order of `arr`: every MOVE_POINTER names an
      ordered window `0 <= left <= mid <= right < n`, every index is in range,
      every COMPARE carries the target, FOUND names only a position holding the
      target, and the trace ends with its only terminal operation. */
  lemma BinarySearchSound(arr: seq<int>, target: int)
    ensures AllProbeOpsFit(BinarySearchOps(arr, target), arr, target)
    ensures IndicesBelow(BinarySearchOps(arr, target), |arr|)
    ensures EndsWithSingleTerminal(BinarySearchOps(arr, target))
  {
    SearchFromFits(arr, target, 0, |arr| - 1);
    AllProbeOpsFitInBounds(BinarySearchOps(arr, target), arr, target);
    SearchFromTerminates(arr, target, 0, |arr| - 1);
  }

  /** Pair `k` of `t` is a MOVE_POINTER `[l, r, mid]` of a window inside an
      array of length `n`, with `mid` its rounded-down midpoint, followed by a
      COMPARE of `mid` carrying the target. */
  predicate PairAt(t: seq<Op>, k: nat, n: int, target: int) {
    && 2 * k + 1 < |t|
    && t[2 * k].kind == MovePointer && t[2 * k].value == None
    && |t[2 * k].indices| == 3
    && 0 <= t[2 * k].indices[0] <= t[2 * k].indices[1] < n
    && t[2 * k].indices[2] == Mid(t[2 * k].indices[0], t[2 * k].indices[1])
    && t[2 * k + 1] == Op(Compare, [t[2 * k].indices[2]], Some(target))
  }

  /** The window of pair `k + 1` is the window of pair `k` narrowed past its
      midpoint, on the side the comparison points to. */
  predicate NarrowsAt(arr: seq<int>, t: seq<Op>, k: nat, target: int) {
    && PairAt(t, k, |arr|, target) && PairAt(t, k + 1, |arr|, target)
    && var l, r, m := t[2 * k].indices[0], t[2 * k].indices[1], t[2 * k].indices[2];
       var l2, r2 := t[2 * k + 2].indices[0], t[2 * k + 2].indices[1];
       && arr[m] != target
       && (arr[m] < target ==> l2 == m + 1 && r2 == r)
       && (arr[m] > target ==> l2 == l && r2 == m - 1)
  }

  /** After `p` pairs the trace ends: with NOT_FOUND at once when there is no
      pair; otherwise with FOUND at the last midpoint when it holds the
      target, or with NOT_FOUND when narrowing past it leaves an empty window. */
  predicate EndsAt(arr: seq<int>, t: seq<Op>, p: nat, target: int) {
    && |t| == 2 * p + 1
    && (p == 0 ==> t[0] == NotFoundOp)
    && (p > 0 ==>
          && PairAt(t, p - 1, |arr|, target)
          && var l, r, m := t[2 * p - 2].indices[0], t[2 * p - 2].indices[1], t[2 * p - 2].indices[2];
             if arr[m] == target then t[2 * p] == Op(Found, [m], None)
             else t[2 * p] == NotFoundOp && (arr[m] < target ==> m == r) && (arr[m] > target ==> m == l))
  }

  /** `t` is what the loop emits from the window `[left, right]`: one pair per
      iteration, the first for `[left, right]` itself, each next window the
      previous one narrowed, and the ending the last comparison calls for. */
  predicate FollowsLoop(arr: seq<int>, t: seq<Op>, target: int, left: int, right: int) {
    var p := |t| / 2;
    && EndsAt(arr, t, p, target)
    && (p > 0 <==> left <= right)
    && (p > 0 ==> PairAt(t, 0, |arr|, target) && t[0].indices[0] == left && t[0].indices[1] == right)
    && (forall k :: 0 <= k < p ==> PairAt(t, k, |arr|, target))
    && (forall k :: 0 <= k < p - 1 ==> NarrowsAt(arr, t, k, target))
  }

  lemma PairShift(head: seq<Op>, rest: seq<Op>, k: nat, n: int, target: int)
    requires |head| == 2
    ensures PairAt(head + rest, k + 1, n, target) == PairAt(rest, k, n, target)
  {
    if 2 * k + 1 < |rest| {
      assert (head + rest)[2 * (k + 1)] == rest[2 * k];
      assert (head + rest)[2 * (k + 1) + 1] == rest[2 * k + 1];
    }
  }

  lemma NarrowShift(arr: seq<int>, head: seq<Op>, rest: seq<Op>, k: nat, target: int)
    requires |head| == 2
    ensures NarrowsAt(arr, head + rest, k + 1, target) == NarrowsAt(arr, rest, k, target)
  {
    PairShift(head, rest, k, |arr|, target);
    PairShift(head, rest, k + 1, |arr|, target);
    if 2 * k + 3 < |rest| {
      assert (head + rest)[2 * (k + 1)] == rest[2 * k];
      assert (head + rest)[2 * (k + 1) + 2] == rest[2 * k + 2];
    }
  }

  lemma EndsShift(arr: seq<int>, head: seq<Op>, rest: seq<Op>, p: nat, target: int)
    requires |head| == 2 && p > 0
    requires EndsAt(arr, rest, p, target)
    ensures EndsAt(arr, head + rest, p + 1, target)
  {
    PairShift(head, rest, p - 1, |arr|, target);
    assert (head + rest)[2 * p] == rest[2 * p - 2];
    assert (head + rest)[2 * (p + 1)] == rest[2 * p];
  }

  /** Every pair and narrowing of `rest` reappears one pair later behind a
      two-operation head. */
  lemma ShiftAll(arr: seq<int>, head: seq<Op>, rest: seq<Op>, target: int)
    requires |head| == 2
    requires forall k :: 0 <= k < |rest| / 2 ==> PairAt(rest, k, |arr|, target)
    requires forall k :: 0 <= k < |rest| / 2 - 1 ==> NarrowsAt(arr, rest, k, target)
    ensures forall k :: 1 <= k < |rest| / 2 + 1 ==> PairAt(head + rest, k, |arr|, target)
    ensures forall k :: 1 <= k < |rest| / 2 ==> NarrowsAt(arr, head + rest, k, target)
  {
    forall k | 1 <= k < |rest| / 2 + 1 ensures PairAt(head + rest, k, |arr|, target) {
      PairShift(head, rest, k - 1, |arr|, target);
    }
    forall k | 1 <= k < |rest| / 2 ensures NarrowsAt(arr, head + rest, k, target) {
      NarrowShift(arr, head, rest, k - 1, target);
    }
  }

  /** The first pair of `head + rest` and its link to the first pair of
      `rest`, and the ending carried over. */
  lemma NarrowFirst(arr: seq<int>, target: int, left: nat, right: int, l2: int, r2: int, rest: seq<Op>)
    requires left <= right < |arr|
    requires var m := Mid(left, right);
      && arr[m] != target
      && (arr[m] < target ==> l2 == m + 1 && r2 == right)
      && (arr[m] > target ==> l2 == left && r2 == m - 1)
    requires FollowsLoop(arr, rest, target, l2, r2)
    ensures var t := ProbeOps(left, right, Mid(left, right), target) + rest;
      && PairAt(t, 0, |arr|, target)
      && EndsAt(arr, t, |rest| / 2 + 1, target)
      && (|rest| / 2 > 0 ==> NarrowsAt(arr, t, 0, target))
  {
    var m := Mid(left, right);
    var head := ProbeOps(left, right, m, target);
    var t := head + rest;
    var q := |rest| / 2;
    assert PairAt(t, 0, |arr|, target);
    if q > 0 {
      PairShift(head, rest, 0, |arr|, target);
      assert t[2] == rest[0];
      assert NarrowsAt(arr, t, 0, target);
      EndsShift(arr, head, rest, q, target);
    } else {
      assert rest == [NotFoundOp];
      assert t[2] == NotFoundOp;
    }
  }

  /** One iteration that does not find the target, followed by the loop from
      the narrowed window `[l2, r2]`, is the loop from `[left, right]`. */
  lemma NarrowStep(arr: seq<int>, target: int, left: nat, right: int, l2: int, r2: int, rest: seq<Op>)
    requires left <= right < |arr|
    requires var m := Mid(left, right);
      && arr[m] != target
      && (arr[m] < target ==> l2 == m + 1 && r2 == right)
      && (arr[m] > target ==> l2 == left && r2 == m - 1)
    requires FollowsLoop(arr, rest, target, l2, r2)
    ensures FollowsLoop(arr, ProbeOps(left, right, Mid(left, right), target) + rest, target, left, right)
  {
    var head := ProbeOps(left, right, Mid(left, right), target);
    var t := head + rest;
    assert |t| / 2 == |rest| / 2 + 1;
    ShiftAll(arr, head, rest, target);
    NarrowFirst(arr, target, left, right, l2, r2, rest);
  }

  /** One iteration that finds the target is the whole loop. */
  lemma HitStep(arr: seq<int>, target: int, left: nat, right: int)
    requires left <= right < |arr| && arr[Mid(left, right)] == target
    ensures var m := Mid(left, right);
      FollowsLoop(arr, ProbeOps(left, right, m, target) + [Op(Found, [m], None)], target, left, right)
  {
    var m := Mid(left, right);
    var t := ProbeOps(left, right, m, target) + [Op(Found, [m], None)];
    assert PairAt(t, 0, |arr|, target);
    assert |t| / 2 == 1;
  }

  /** The loop from a window whose midpoint misses the target, given the loop
      from the narrowed window `l2, r2`. */
  lemma NarrowOn(arr: seq<int>, target: int, left: nat, right: int, l2: nat, r2: int)
    requires left <= right < |arr| && r2 < |arr|
    requires var m := Mid(left, right);
      && arr[m] != target
      && (arr[m] < target ==> l2 == m + 1 && r2 == right)
      && (arr[m] > target ==> l2 == left && r2 == m - 1)
    requires FollowsLoop(arr, SearchFrom(arr, target, l2, r2), target, l2, r2)
    ensures FollowsLoop(arr, SearchFrom(arr, target, left, right), target, left, right)
  {
    var m := Mid(left, right);
    var after := AfterProbe(arr, target, left, right);
    SearchFromUnfold(arr, target, left, right);
    assert after == SearchFrom(arr, target, l2, r2);
    NarrowStep(arr, target, left, right, l2, r2, after);
  }

  /** The loop from a window whose midpoint holds the target. */
  lemma HitOn(arr: seq<int>, target: int, left: nat, right: int)
    requires left <= right < |arr| && arr[Mid(left, right)] == target
    ensures FollowsLoop(arr, SearchFrom(arr, target, left, right), target, left, right)
  {
    var m := Mid(left, right);
    SearchFromUnfold(arr, target, left, right);
    assert AfterProbe(arr, target, left, right) == [Op(Found, [m], None)];
    HitStep(arr, target, left, right);
  }

  lemma {:induction false} SearchFromFollowsLoop(arr: seq<int>, target: int, left: nat, right: int)
    requires right < |arr|
    ensures FollowsLoop(arr, SearchFrom(arr, target, left, right), target, left, right)
    decreases right - left + 1
  {
    if left <= right {
      var m := Mid(left, right);
      if arr[m] == target {
        HitOn(arr, target, left, right);
      } else if arr[m] < target {
        SearchFromFollowsLoop(arr, target, m + 1, right);
        NarrowOn(arr, target, left, right, m + 1, right);
      } else {
        SearchFromFollowsLoop(arr, target, left, m - 1);
        NarrowOn(arr, target, left, right, left, m - 1);
      }
    } else {
      assert SearchFrom(arr, target, left, right) == [NotFoundOp];
    }
  }

  /** The trace follows `generateBinarySearchOps` step by step, for every
      array and target: the first window is `[0, n-1]`; each MOVE_POINTER is
      `[left, right, mid]` with `mid` the rounded-down midpoint, and the COMPARE
      after it names `mid`; each next window is `[mid+1, right]` when
      `arr[mid] < target` and `[left, mid-1]` when `arr[mid] > target`; the
      trace ends with FOUND `[mid]` on a hit and NOT_FOUND once the window is
      empty. */
  lemma BinarySearchFollowsLoop(arr: seq<int>, target: int)
    ensures FollowsLoop(arr, BinarySearchOps(arr, target), target, 0, |arr| - 1)
  {
    SearchFromFollowsLoop(arr, target, 0, |arr| - 1);
  }

  /** The trace on `[1, 3, 5, 7, 9]` for 7: the window `[0, 4]` probes 2, the
      window `[3, 4]` probes 3, rounding the midpoint down, and finds it. */
  lemma SevenInOneToNine()
    ensures BinarySearchOps([1, 3, 5, 7, 9], 7)
      == [Op(MovePointer, [0, 4, 2], None), Op(Compare, [2], Some(7)),
          Op(MovePointer, [3, 4, 3], None), Op(Compare, [3], Some(7)),
          Op(Found, [3], None)]
  {
  }

  /** On ascending input the trace ends with FOUND exactly when `target` occurs. */
  lemma BinarySearchComplete(arr: seq<int>, target: int)
    requires Sorted(arr)
    ensures var t := BinarySearchOps(arr, target);
      t[|t| - 1].kind == Found <==> target in arr
  {
    var t := BinarySearchOps(arr, target);
    BinarySearchSound(arr, target);
    SearchFromComplete(arr, target, 0, |arr| - 1);
    assert ProbeOpFits(t[|t| - 1], arr, target);
  }

  /** For `n < 2^k` the trace has at most `k` probe pairs and one terminal
      operation: `O(log n)` operations. */
  lemma BinarySearchLogarithmic(arr: seq<int>, target: int, k: nat)
    requires |arr| < Pow2(k)
    ensures |BinarySearchOps(arr, target)| <= 2 * k + 1
  {
    SearchFromLogarithmic(arr, target, 0, |arr| - 1, k);
  }

  lemma SearchStep(arr: seq<int>, target: int, left: nat, right: int, done: seq<Op>, whole: seq<Op>)
    requires left <= right < |arr|
    requires done + SearchFrom(arr, target, left, right) == whole
    ensures var mid := Mid(left, right); var probe := done + ProbeOps(left, right, mid, target);
      && (arr[mid] == target ==> probe + [Op(Found, [mid], None)] == whole)
      && (arr[mid] < target ==> probe + SearchFrom(arr, target, mid + 1, right) == whole)
      && (arr[mid] > target ==> probe + SearchFrom(arr, target, left, mid - 1) == whole)
  {
    var mid := Mid(left, right);
    var after := AfterProbe(arr, target, left, right);
    SearchFromUnfold(arr, target, left, right);
    assert done + ProbeOps(left, right, mid, target) + after == whole;
    if arr[mid] == target {
      assert after == [Op(Found, [mid], None)];
    } else if arr[mid] < target {
      assert after == SearchFrom(arr, target, mid + 1, right);
    } else {
      assert after == SearchFrom(arr, target, left, mid - 1);
    }
  }

  /** The loop of `generateBinarySearchOps` as written, with its early return. */
  method GenerateBinarySearchOps(arr: seq<int>, target: int) returns (ops: seq<Op>)
    ensures ops == BinarySearchOps(arr, target)
    ensures TraceSettles(arr, target, ops)
  {
    ghost var whole := SearchFrom(arr, target, 0, |arr| - 1);
    ops := [];
    var left := 0;
    var right := |arr| - 1;
    while left <= right
      invariant 0 <= left && right < |arr|
      invariant ops + SearchFrom(arr, target, left, right) == whole
      decreases right - left + 1
    {
      var mid := Mid(left, right);
      SearchStep(arr, target, left, right, ops, whole);
      ghost var before := ops;
      ops := ops + [Op(MovePointer, [left, right, mid], None)];
      ops := ops + [Op(Compare, [mid], Some(target))];
      assert ops == before + ProbeOps(left, right, mid, target);
      if arr[mid] == target {
        ops := ops + [Op(Found, [mid], None)];
        Conclude(arr, target, ops);
        return;
      } else if arr[mid] < target {
        left := mid + 1;
      } else {
        right := mid - 1;
      }
    }
    ops := ops + [NotFoundOp];
    assert ops == whole;
    Conclude(arr, target, ops);
  }

  /** The trace stays within the array and ends with its only terminal
      operation; it ends with FOUND only when the target occurs, and on
      ascending input exactly then. */
  predicate TraceSettles(arr: seq<int>, target: int, ops: seq<Op>) {
    && EndsWithSingleTerminal(ops) && IndicesBelow(ops, |arr|)
    && (ops[|ops| - 1].kind == Found ==> target in arr)
    && (Sorted(arr) ==> (ops[|ops| - 1].kind == Found <==> target in arr))
  }

  lemma Conclude(arr: seq<int>, target: int, ops: seq<Op>)
    requires ops == SearchFrom(arr, target, 0, |arr| - 1)
    ensures TraceSettles(arr, target, ops)
  {
    BinarySearchSound(arr, target);
    assert ProbeOpFits(ops[|ops| - 1], arr, target);
    if Sorted(arr) {
      BinarySearchComplete(arr, target);
    }
  }
}

=== FILE: bubble_sort.dfy ===
/** `generateBubbleSortOps`: the classic adjacent-exchange sort run on a private
    copy of the input, recorded as a trace of COMPARE/SWAP operations closed by
    one COMPLETE. The copy is a local value, so the caller's array is never
    changed. */
module BubbleSort {
  import opened Arrays
  import opened Trace

  /** The operations emitted by one stretch of the loops, and the private copy
      as those loops leave it. */
  datatype Pass = Pass(ops: seq<Op>, copy: seq<int>)

  function CompareOp(j: int): Op { Op(Compare, [j, j + 1], None) }
  function SwapOp(j: int): Op { Op(Swap, [j, j + 1], None) }

  /** The inner loop `for (; j < bound; j++)` over the copy `c`. */
  function InnerPass(c: seq<int>, j: nat, bound: nat): (p: Pass)
    requires j <= bound < |c|
    ensures |p.copy| == |c|
    decreases bound - j
  {
    if j == bound then Pass([], c)
    else if c[j] > c[j + 1] then
      var rest := InnerPass(Exchange(c, j, j + 1), j + 1, bound);
      Pass([CompareOp(j), SwapOp(j)] + rest.ops, rest.copy)
    else
      var rest := InnerPass(c, j + 1, bound);
      Pass([CompareOp(j)] + rest.ops, rest.copy)
  }

  /** The outer loop `for (; i < n - 1; i++)`, each round running the inner
      loop up to `n - i - 1`. */
  function OuterPasses(c: seq<int>, i: nat): (p: Pass)
    ensures |p.copy| == |c|
    decreases |c| - i
  {
    if i + 1 >= |c| then Pass([], c)
    else
      var inner := InnerPass(c, 0, |c| - i - 1);
      var rest := OuterPasses(inner.copy, i + 1);
      Pass(inner.ops + rest.ops, rest.copy)
  }

  /** The whole trace for input `arr`: the passes' COMPAREs and SWAPs, none
      of them terminal, then a single COMPLETE. */
  function BubbleSortOps(arr: seq<int>): (t: seq<Op>)
    ensures EndsWithSingleTerminal(t)
    ensures t[|t| - 1] == CompleteOp
  {
    OuterPassesPairs(arr, 0);
    OuterPasses(arr, 0).ops + [CompleteOp]
  }

  /** A COMPARE or a SWAP, without payload, of an adjacent pair `[j, j + 1]`
      of positions below `n`. */
  predicate IsAdjacentPairOp(op: Op, n: int) {
    && (op.kind == Compare || op.kind == Swap)
    && op.value == None
    && |op.indices| == 2
    && 0 <= op.indices[0]
    && op.indices[1] == op.indices[0] + 1
    && op.indices[1] < n
  }

  /** Every operation of `t` is an adjacent-pair COMPARE or SWAP below `n`. */
  predicate AdjacentPairOps(t: seq<Op>, n: int) {
    forall k :: 0 <= k < |t| ==> IsAdjacentPairOp(t[k], n)
  }

  lemma AdjacentPairOpsAppend(t1: seq<Op>, t2: seq<Op>, n: int)
    requires AdjacentPairOps(t1, n) && AdjacentPairOps(t2, n)
    ensures AdjacentPairOps(t1 + t2, n)
  {
    forall k | 0 <= k < |t1 + t2| ensures IsAdjacentPairOp((t1 + t2)[k], n) {
      if k < |t1| { assert (t1 + t2)[k] == t1[k]; } else { assert (t1 + t2)[k] == t2[k - |t1|]; }
    }
  }

  /** Every SWAP comes straight after the COMPARE of the same pair (so in
      particular a trace never starts with a SWAP). */
  predicate SwapsFollowCompare(t: seq<Op>) {
    forall k :: 0 <= k < |t| && t[k].kind == Swap ==>
      0 < k && t[k - 1].kind == Compare && t[k - 1].indices == t[k].indices
  }

  lemma SwapsFollowCompareAppend(t1: seq<Op>, t2: seq<Op>)
    requires SwapsFollowCompare(t1) && SwapsFollowCompare(t2)
    ensures SwapsFollowCompare(t1 + t2)
  {
    var t := t1 + t2;
    forall k | 0 <= k < |t| && t[k].kind == Swap
      ensures 0 < k && t[k - 1].kind == Compare && t[k - 1].indices == t[k].indices
    {
      if k >= |t1| {
        assert t[k] == t2[k - |t1|];
        assert k - |t1| > 0;
        assert t[k - 1] == t2[k - 1 - |t1|];
      } else {
        assert t[k] == t1[k];
      }
    }
  }

  /** All elements at positions up to `bound` are at most every element after it. */
  predicate Partitioned(a: seq<int>, bound: int) {
    forall x, y :: 0 <= x <= bound < y < |a| ==> a[x] <= a[y]
  }

  /** The operations the inner loop emits at position `j` before moving on. */
  function InnerHead(c: seq<int>, j: nat): seq<Op>
    requires j + 1 < |c|
  {
    if c[j] > c[j + 1] then [CompareOp(j), SwapOp(j)] else [CompareOp(j)]
  }

  /** The copy after the inner loop's step at position `j`. */
  function InnerNext(c: seq<int>, j: nat): (r: seq<int>)
    requires j + 1 < |c|
    ensures |r| == |c|
  {
    if c[j] > c[j + 1] then Exchange(c, j, j + 1) else c
  }

  lemma InnerPassUnfold(c: seq<int>, j: nat, bound: nat)
    requires j < bound < |c|
    ensures InnerPass(c, j, bound).ops == InnerHead(c, j) + InnerPass(InnerNext(c, j), j + 1, bound).ops
    ensures InnerPass(c, j, bound).copy == InnerPass(InnerNext(c, j), j + 1, bound).copy
  {
  }

  /** One step's operations name the pair `(j, j+1)`, SWAP after COMPARE. */
  lemma InnerHeadShape(c: seq<int>, j: nat, bound: nat)
    requires j < bound < |c|
    ensures AdjacentPairOps(InnerHead(c, j), bound + 1)
    ensures SwapsFollowCompare(InnerHead(c, j))
  {
    var head := InnerHead(c, j);
    assert IsAdjacentPairOp(head[0], bound + 1);
    assert |head| == 2 ==> IsAdjacentPairOp(head[1], bound + 1);
  }

  lemma {:induction false} InnerPassPairs(c: seq<int>, j: nat, bound: nat)
    requires j <= bound < |c|
    ensures AdjacentPairOps(InnerPass(c, j, bound).ops, bound + 1)
    ensures SwapsFollowCompare(InnerPass(c, j, bound).ops)
    decreases bound - j
  {
    if j < bound {
      InnerPassUnfold(c, j, bound);
      InnerPassPairs(InnerNext(c, j), j + 1, bound);
      var head := InnerHead(c, j);
      InnerHeadShape(c, j, bound);
      AdjacentPairOpsAppend(head, InnerPass(InnerNext(c, j), j + 1, bound).ops, bound + 1);
      SwapsFollowCompareAppend(head, InnerPass(InnerNext(c, j), j + 1, bound).ops);
    }
  }

  lemma {:induction false} InnerPassCount(c: seq<int>, j: nat, bound: nat)
    requires j <= bound < |c|
    ensures Count(InnerPass(c, j, bound).ops, Compare) == bound - j
    decreases bound - j
  {
    if j < bound {
      InnerPassUnfold(c, j, bound);
      InnerPassCount(InnerNext(c, j), j + 1, bound);
      CountAppend(InnerHead(c, j), InnerPass(InnerNext(c, j), j + 1, bound).ops, Compare);
    }
  }

  lemma {:induction false} InnerPassReplay(c: seq<int>, j: nat, bound: nat)
    requires j <= bound < |c|
    ensures Replay(c, InnerPass(c, j, bound).ops) == InnerPass(c, j, bound).copy
    decreases bound - j
  {
    if j < bound {
      var head := InnerHead(c, j);
      InnerPassUnfold(c, j, bound);
      InnerPassReplay(InnerNext(c, j), j + 1, bound);
      ReplayAppend(c, head, InnerPass(InnerNext(c, j), j + 1, bound).ops);
      assert Replay(c, head) == InnerNext(c, j) by {
        assert Replay(c, head) == Replay(c, head[1..]);
        if c[j] > c[j + 1] {
          assert head[1..] == [SwapOp(j)];
          assert Replay(c, [SwapOp(j)]) == Replay(Exchange(c, j, j + 1), []);
        } else {
          assert head[1..] == [];
        }
      }
    }
  }

  /** Positions from `k` on are in ascending order. */
  predicate SortedFrom(a: seq<int>, k: int) {
    forall x, y :: 0 <= x < y < |a| && k <= x ==> a[x] <= a[y]
  }

  /** One inner loop up to `bound` carries the largest of `c[0..bound]` to
      position `bound`, leaves everything after `bound` alone and keeps the
      partition at `bound`. */
  lemma {:induction false} InnerPassBubblesMax(c: seq<int>, j: nat, bound: nat)
    requires j <= bound < |c|
    requires forall x :: 0 <= x < j ==> c[x] <= c[j]
    ensures forall x :: 0 <= x <= bound ==> InnerPass(c, j, bound).copy[x] <= InnerPass(c, j, bound).copy[bound]
    ensures forall x :: bound < x < |c| ==> InnerPass(c, j, bound).copy[x] == c[x]
    ensures Partitioned(c, bound) ==> Partitioned(InnerPass(c, j, bound).copy, bound)
    decreases bound - j
  {
    if j < bound {
      var next := InnerNext(c, j);
      if c[j] > c[j + 1] {
        ExchangePermutes(c, j, j + 1);
      }
      assert forall x :: 0 <= x < j + 1 ==> next[x] <= next[j + 1];
      assert Partitioned(c, bound) ==> Partitioned(next, bound);
      InnerPassUnfold(c, j, bound);
      InnerPassBubblesMax(next, j + 1, bound);
    }
  }

  /** After a round whose inner loop ran up to `bound`, the suffix from
      `bound` is sorted and dominates what lies before it. */
  lemma RoundExtendsSortedSuffix(c: seq<int>, bound: nat)
    requires 0 < bound < |c|
    requires SortedFrom(c, bound + 1) && Partitioned(c, bound)
    ensures SortedFrom(InnerPass(c, 0, bound).copy, bound)
    ensures Partitioned(InnerPass(c, 0, bound).copy, bound - 1)
  {
    InnerPassBubblesMax(c, 0, bound);
  }

  /** Rounds `i..n-2` finish the sort when the suffix from `n - i` is already
      sorted and dominates the prefix. */
  lemma {:induction false} OuterPassesSort(c: seq<int>, i: nat)
    requires i <= |c|
    requires SortedFrom(c, |c| - i) && Partitioned(c, |c| - i - 1)
    ensures Sorted(OuterPasses(c, i).copy)
    decreases |c| - i
  {
    if i + 1 < |c| {
      var bound := |c| - i - 1;
      RoundExtendsSortedSuffix(c, bound);
      OuterPassesUnfold(c, i);
      OuterPassesSort(InnerPass(c, 0, bound).copy, i + 1);
    }
  }

  lemma OuterPassesUnfold(c: seq<int>, i: nat)
    requires i + 1 < |c|
    ensures OuterPasses(c, i).ops == InnerPass(c, 0, |c| - i - 1).ops + OuterPasses(InnerPass(c, 0, |c| - i - 1).copy, i + 1).ops
    ensures OuterPasses(c, i).copy == OuterPasses(InnerPass(c, 0, |c| - i - 1).copy, i + 1).copy
  {
  }

  lemma {:induction false} OuterPassesPairs(c: seq<int>, i: nat)
    ensures AdjacentPairOps(OuterPasses(c, i).ops, |c|)
    ensures SwapsFollowCompare(OuterPasses(c, i).ops)
    decreases |c| - i
  {
    if i + 1 < |c| {
      var inner := InnerPass(c, 0, |c| - i - 1);
      OuterPassesUnfold(c, i);
      InnerPassPairs(c, 0, |c| - i - 1);
      OuterPassesPairs(inner.copy, i + 1);
      assert AdjacentPairOps(inner.ops, |c|) by {
        forall k | 0 <= k < |inner.ops| ensures IsAdjacentPairOp(inner.ops[k], |c|) {
          assert IsAdjacentPairOp(inner.ops[k], |c| - i);
        }
      }
      AdjacentPairOpsAppend(inner.ops, OuterPasses(inner.copy, i + 1).ops, |c|);
      SwapsFollowCompareAppend(inner.ops, OuterPasses(inner.copy, i + 1).ops);
    }
  }

  /** `0 + 1 + ... + (m - 1)`, the number of pairs among `m` positions. */
  function Triangle(m: nat): nat {
    if m == 0 then 0 else (m - 1) + Triangle(m - 1)
  }

  lemma {:induction false} TriangleClosedForm(m: nat)
    ensures Triangle(m) == m * (m - 1) / 2
  {
    if m > 0 {
      TriangleClosedForm(m - 1);
      assert m * (m - 1) == 2 * (m - 1) + (m - 1) * (m - 2);
    }
  }

  lemma {:induction false} OuterPassesCount(c: seq<int>, i: nat)
    ensures Count(OuterPasses(c, i).ops, Compare) == if i < |c| then Triangle(|c| - i) else 0
    decreases |c| - i
  {
    if i + 1 < |c| {
      var inner := InnerPass(c, 0, |c| - i - 1);
      OuterPassesUnfold(c, i);
      InnerPassCount(c, 0, |c| - i - 1);
      OuterPassesCount(inner.copy, i + 1);
      CountAppend(inner.ops, OuterPasses(inner.copy, i + 1).ops, Compare);
    } else if i < |c| {
      assert |c| - i == 1;
    }
  }

  lemma {:induction false} OuterPassesReplay(c: seq<int>, i: nat)
    ensures Replay(c, OuterPasses(c, i).ops) == OuterPasses(c, i).copy
    decreases |c| - i
  {
    if i + 1 < |c| {
      var inner := InnerPass(c, 0, |c| - i - 1);
      OuterPassesUnfold(c, i);
      InnerPassReplay(c, 0, |c| - i - 1);
      OuterPassesReplay(inner.copy, i + 1);
      ReplayAppend(c, inner.ops, OuterPasses(inner.copy, i + 1).ops);
    }
  }

  /** The trace names only adjacent pairs of valid positions, closes with
      exactly one operation, a COMPLETE, and is just `[COMPLETE]` for `n <= 1`. */
  lemma BubbleSortTraceBounds(arr: seq<int>)
    ensures var t := BubbleSortOps(arr);
      && AdjacentPairOps(t[..|t| - 1], |arr|)
      && IndicesBelow(t, |arr|)
      && t[|t| - 1] == CompleteOp
      && EndsWithSingleTerminal(t)
      && (|arr| <= 1 ==> t == [CompleteOp])
  {
    var t := BubbleSortOps(arr);
    OuterPassesPairs(arr, 0);
    assert t[..|t| - 1] == OuterPasses(arr, 0).ops;
    forall k | 0 <= k < |t| - 1 ensures IsAdjacentPairOp(t[k], |arr|) {
      assert t[k] == t[..|t| - 1][k];
    }
  }

  /** The trace holds one COMPARE per inner-loop iteration, `n(n-1)/2` in all,
      and a single COMPLETE. */
  lemma BubbleSortCompareCount(arr: seq<int>)
    ensures Count(BubbleSortOps(arr), Compare) == |arr| * (|arr| - 1) / 2
    ensures Count(BubbleSortOps(arr), Complete) == 1
  {
    var body := OuterPasses(arr, 0).ops;
    OuterPassesPairs(arr, 0);
    OuterPassesCount(arr, 0);
    TriangleClosedForm(|arr|);
    CountAppend(body, [CompleteOp], Compare);
    CountAppend(body, [CompleteOp], Complete);
    assert Count(body, Complete) == 0 by {
      forall k | 0 <= k < |body| ensures body[k].kind != Complete {
        assert IsAdjacentPairOp(body[k], |arr|);
      }
      CountZero(body, Complete);
    }
  }

  /** Every SWAP of the trace comes straight after the COMPARE of its pair. */
  lemma BubbleSortSwapsFollowCompare(arr: seq<int>)
    ensures SwapsFollowCompare(BubbleSortOps(arr))
  {
    OuterPassesPairs(arr, 0);
    SwapsFollowCompareAppend(OuterPasses(arr, 0).ops, [CompleteOp]);
  }

  /** Replaying the trace's SWAPs in order on the input yields an ascending
      permutation of it. */
  lemma BubbleSortReplaySorts(arr: seq<int>)
    ensures Sorted(Replay(arr, BubbleSortOps(arr)))
    ensures multiset(Replay(arr, BubbleSortOps(arr))) == multiset(arr)
  {
    var body := OuterPasses(arr, 0).ops;
    OuterPassesReplay(arr, 0);
    OuterPassesSort(arr, 0);
    ReplayPermutes(arr, BubbleSortOps(arr));
    ReplayAppend(arr, body, [CompleteOp]);
  }

  /** Replaying `t` from `a`: at every COMPARE of an adjacent pair `[j, j+1]`,
      a SWAP comes next exactly when `a[j] > a[j+1]` in the array as replayed
      up to that point. Equal values are never swapped. */
  predicate SwapsExactlyWhenInverted(a: seq<int>, t: seq<Op>)
    decreases |t|
  {
    if t == [] then true
    else
      var op := t[0];
      && (op.kind == Compare && IsAdjacentPairOp(op, |a|) ==>
            ((|t| > 1 && t[1].kind == Swap) <==> a[op.indices[0]] > a[op.indices[1]]))
      && SwapsExactlyWhenInverted(Apply(a, op), t[1..])
  }

  lemma {:induction false} SwapsExactlyAppend(a: seq<int>, t1: seq<Op>, t2: seq<Op>)
    requires SwapsExactlyWhenInverted(a, t1)
    requires SwapsExactlyWhenInverted(Replay(a, t1), t2)
    requires t2 == [] || t2[0].kind != Swap
    ensures SwapsExactlyWhenInverted(a, t1 + t2)
    decreases |t1|
  {
    if t1 == [] {
      assert t1 + t2 == t2;
    } else {
      var t := t1 + t2;
      assert t[0] == t1[0];
      assert t[1..] == t1[1..] + t2;
      if |t1| > 1 {
        assert t[1] == t1[1];
      }
      SwapsExactlyAppend(Apply(a, t1[0]), t1[1..], t2);
    }
  }

  /** A COMPARE the pair does not satisfy, followed by nothing. */
  lemma CompareAloneSwapsExactly(c: seq<int>, j: nat)
    requires j + 1 < |c| && c[j] <= c[j + 1]
    ensures SwapsExactlyWhenInverted(c, [CompareOp(j)])
    ensures Replay(c, [CompareOp(j)]) == c
  {
    var t := [CompareOp(j)];
    assert Apply(c, t[0]) == c;
    assert t[1..] == [];
  }

  /** A COMPARE of an inverted pair, followed by its SWAP. */
  lemma CompareSwapSwapsExactly(c: seq<int>, j: nat)
    requires j + 1 < |c| && c[j] > c[j + 1]
    ensures SwapsExactlyWhenInverted(c, [CompareOp(j), SwapOp(j)])
    ensures Replay(c, [CompareOp(j), SwapOp(j)]) == Exchange(c, j, j + 1)
  {
    var t := [CompareOp(j), SwapOp(j)];
    var e := Exchange(c, j, j + 1);
    assert Apply(c, t[0]) == c;
    assert t[1..] == [SwapOp(j)];
    assert Apply(c, SwapOp(j)) == e;
    assert [SwapOp(j)][1..] == [];
    assert SwapsExactlyWhenInverted(e, []);
    assert SwapsExactlyWhenInverted(c, [SwapOp(j)]);
    assert IsAdjacentPairOp(t[0], |c|);
    assert Replay(e, []) == e;
    assert Replay(c, [SwapOp(j)]) == e;
  }

  /** One step's operations decide the swap by the strict comparison, and
      replay to the step's copy. */
  lemma InnerHeadSwapsExactly(c: seq<int>, j: nat)
    requires j + 1 < |c|
    ensures SwapsExactlyWhenInverted(c, InnerHead(c, j))
    ensures Replay(c, InnerHead(c, j)) == InnerNext(c, j)
  {
    if c[j] > c[j + 1] {
      CompareSwapSwapsExactly(c, j);
    } else {
      CompareAloneSwapsExactly(c, j);
    }
  }

  /** A trace whose SWAPs all follow their COMPARE cannot start with a SWAP. */
  lemma NoLeadingSwap(t: seq<Op>)
    requires SwapsFollowCompare(t)
    ensures t == [] || t[0].kind != Swap
  {
  }

  lemma {:induction false} InnerPassSwapsExactly(c: seq<int>, j: nat, bound: nat)
    requires j <= bound < |c|
    ensures SwapsExactlyWhenInverted(c, InnerPass(c, j, bound).ops)
    decreases bound - j
  {
    if j < bound {
      var next := InnerNext(c, j);
      var rest := InnerPass(next, j + 1, bound).ops;
      InnerPassUnfold(c, j, bound);
      InnerHeadSwapsExactly(c, j);
      InnerPassSwapsExactly(next, j + 1, bound);
      assert rest == [] || rest[0].kind != Swap by {
        InnerPassPairs(next, j + 1, bound);
        NoLeadingSwap(rest);
      }
      SwapsExactlyAppend(c, InnerHead(c, j), rest);
    }
  }

  lemma {:induction false} OuterPassesSwapsExactly(c: seq<int>, i: nat)
    ensures SwapsExactlyWhenInverted(c, OuterPasses(c, i).ops)
    decreases |c| - i
  {
    if i + 1 < |c| {
      var inner := InnerPass(c, 0, |c| - i - 1);
      var rest := OuterPasses(inner.copy, i + 1);
      InnerPassSwapsExactly(c, 0, |c| - i - 1);
      InnerPassReplay(c, 0, |c| - i - 1);
      OuterPassesSwapsExactly(inner.copy, i + 1);
      OuterPassesPairs(inner.copy, i + 1);
      NoLeadingSwap(rest.ops);
      SwapsExactlyAppend(c, inner.ops, rest.ops);
      OuterPassesUnfold(c, i);
    }
  }

  /** Replayed on the input, the trace SWAPs a compared pair exactly when it is
      strictly out of order at that moment: together with
      `BubbleSortSwapsFollowCompare`, the SWAPs are exactly the inversions the
      copy resolves. */
  lemma BubbleSortSwapsExactlyWhenInverted(arr: seq<int>)
    ensures SwapsExactlyWhenInverted(arr, BubbleSortOps(arr))
  {
    var body := OuterPasses(arr, 0).ops;
    OuterPassesSwapsExactly(arr, 0);
    assert SwapsExactlyWhenInverted(Replay(arr, body), [CompleteOp]) by {
      assert [CompleteOp][1..] == [];
    }
    SwapsExactlyAppend(arr, body, [CompleteOp]);
  }

  /** The trace on `[5, 3, 1]`: pairs are compared left to right, the first
      pass carries 5 to the end, the second compares only `[0, 1]`. */
  lemma FiveThreeOneTrace()
    ensures BubbleSortOps([5, 3, 1])
      == [CompareOp(0), SwapOp(0), CompareOp(1), SwapOp(1), CompareOp(0), SwapOp(0), CompleteOp]
  {
  }

  /** The trace on `[3, 3]`: equal values are compared but never swapped. */
  lemma EqualPairNotSwapped()
    ensures BubbleSortOps([3, 3]) == [CompareOp(0), CompleteOp]
  {
    assert InnerPass([3, 3], 1, 1).ops == [];
    assert InnerPass([3, 3], 0, 1).ops == [CompareOp(0)];
    assert OuterPasses([3, 3], 1).ops == [];
  }

  lemma InnerLoopStep(c: seq<int>, copy: seq<int>, j: nat, bound: nat, done: seq<Op>)
    requires j < bound < |copy| == |c|
    requires done + InnerPass(copy, j, bound).ops == InnerPass(c, 0, bound).ops
    requires InnerPass(copy, j, bound).copy == InnerPass(c, 0, bound).copy
    ensures done + InnerHead(copy, j) + InnerPass(InnerNext(copy, j), j + 1, bound).ops
            == InnerPass(c, 0, bound).ops
    ensures InnerPass(InnerNext(copy, j), j + 1, bound).copy == InnerPass(c, 0, bound).copy
  {
    InnerPassUnfold(copy, j, bound);
  }

  lemma OuterLoopStep(arr: seq<int>, copy: seq<int>, i: nat, done: seq<Op>)
    requires i + 1 < |copy|
    requires done + OuterPasses(copy, i).ops == OuterPasses(arr, 0).ops
    ensures done + InnerPass(copy, 0, |copy| - i - 1).ops
            + OuterPasses(InnerPass(copy, 0, |copy| - i - 1).copy, i + 1).ops
            == OuterPasses(arr, 0).ops
  {
    OuterPassesUnfold(copy, i);
  }

  /** The inner loop `for (let j = 0; j < bound; j++)` of one round, on the
      copy `c`: the operations it pushes and the copy it leaves. */
  method InnerLoop(c: seq<int>, bound: nat) returns (ops: seq<Op>, copy: seq<int>)
    requires bound < |c|
    ensures ops == InnerPass(c, 0, bound).ops && copy == InnerPass(c, 0, bound).copy
  {
    ops := [];
    copy := c;
    var j := 0;
    while j < bound
      invariant j <= bound && |copy| == |c|
      invariant ops + InnerPass(copy, j, bound).ops == InnerPass(c, 0, bound).ops
      invariant InnerPass(copy, j, bound).copy == InnerPass(c, 0, bound).copy
    {
      InnerLoopStep(c, copy, j, bound, ops);
      ghost var before, c0 := ops, copy;
      ops := ops + [CompareOp(j)];
      if copy[j] > copy[j + 1] {
        ops := ops + [SwapOp(j)];
        copy := Exchange(copy, j, j + 1);
      }
      assert ops == before + InnerHead(c0, j) && copy == InnerNext(c0, j);
      j := j + 1;
    }
  }

  /** The loops of `generateBubbleSortOps` as written, on a private copy. */
  method GenerateBubbleSortOps(arr: seq<int>) returns (ops: seq<Op>)
    ensures ops == BubbleSortOps(arr)
    ensures Sorted(Replay(arr, ops)) && multiset(Replay(arr, ops)) == multiset(arr)
  {
    ops := [];
    var n := |arr|;
    var copy := arr;
    var i := 0;
    while i < n - 1
      invariant 0 <= i && |copy| == n
      invariant ops + OuterPasses(copy, i).ops == OuterPasses(arr, 0).ops
    {
      OuterLoopStep(arr, copy, i, ops);
      var round;
      round, copy := InnerLoop(copy, n - i - 1);
      ops := ops + round;
      i := i + 1;
    }
    ops := ops + [CompleteOp];
    assert ops == BubbleSortOps(arr);
    BubbleSortReplaySorts(arr);
  }
}

=== FILE: highlight.dfy ===
/** `getBarColor`: the colour of each bar is a pure function of the operation
    on screen and the bar's index. */
module Highlight {
  import opened Trace
  import opened Playback
  import opened Traverse

  /** The six colours a bar can take. */
  datatype Color = Default | FoundColor | CompareColor | SwapColor | TraverseColor | PointerColor

  /** A lower-case hexadecimal digit. */
  predicate IsHexDigit(ch: char) {
    '0' <= ch <= '9' || 'a' <= ch <= 'f'
  }

  /** The CSS colour each tag stands for: a six-digit `#rrggbb` literal. */
  function Hex(c: Color): (r: string)
    ensures |r| == 7 && r[0] == '#'
    ensures forall i :: 1 <= i < 7 ==> IsHexDigit(r[i])
  {
    match c
    case Default => "#4a90e2"
    case FoundColor => "#2ecc71"
    case CompareColor => "#f39c12"
    case SwapColor => "#e74c3c"
    case TraverseColor => "#9b59b6"
    case PointerColor => "#1abc9c"
  }

  /** Distinct tags are painted in distinct colours. */
  lemma HexInjective(c1: Color, c2: Color)
    ensures Hex(c1) == Hex(c2) <==> c1 == c2
  {
  }

  /** `getBarColor` as written: no operation gives the default colour; then
      the first of FOUND, COMPARE, SWAP, TRAVERSE, MOVE_POINTER whose kind
      matches and whose indices include the bar decides; otherwise default. */
  function BarColor(cur: Option<Op>, index: int): (c: Color)
    ensures c != Default ==> cur.Some? && index in cur.value.indices
    ensures cur.None? ==> c == Default
  {
    if cur.None? then Default
    else
      var op := cur.value;
      if op.kind == Found && index in op.indices then FoundColor
      else if op.kind == Compare && index in op.indices then CompareColor
      else if op.kind == Swap && index in op.indices then SwapColor
      else if op.kind == Traverse && index in op.indices then TraverseColor
      else if op.kind == MovePointer && index in op.indices then PointerColor
      else Default
  }

  /** The role each kind gives the bars it names, as a table. INSERT, DELETE,
      NOT_FOUND and COMPLETE highlight nothing. */
  function KindColor(k: Kind): Color {
    match k
    case Found => FoundColor
    case Compare => CompareColor
    case Swap => SwapColor
    case Traverse => TraverseColor
    case MovePointer => PointerColor
    case Insert => Default
    case Delete => Default
    case NotFound => Default
    case Complete => Default
  }

  /** The chain of tests is the table lookup for the bars the operation names
      and the default colour for every other bar: since the tests ask about
      different kinds, their order never matters. */
  lemma BarColorIsTable(op: Op, index: int)
    ensures BarColor(Some(op), index) == (if index in op.indices then KindColor(op.kind) else Default)
  {
  }

  /** A bar is highlighted exactly when the operation on screen names it and
      its kind is one of the five that highlight; the colour tells the kind. */
  lemma HighlightedIff(op: Op, index: int)
    ensures BarColor(Some(op), index) != Default
            <==> index in op.indices && op.kind in {Found, Compare, Swap, Traverse, MovePointer}
    ensures BarColor(Some(op), index) != Default ==> KindColor(op.kind) == BarColor(Some(op), index)
  {
    BarColorIsTable(op, index);
  }

  /** While a traversal of `arr` plays, after `k` effects exactly bar `k` is
      painted in the traversal colour and every other bar is in the default
      colour. */
  lemma TraverseLightsOneBar(p: Player, arr: seq<int>, k: nat, b: int)
    requires k < |arr|
    ensures BarColor(CurrentOp(Ticks(Run(p, TraverseOps(arr)), k)), b)
            == (if b == k then TraverseColor else Default)
  {
    ShowsEveryOpInOrder(p, TraverseOps(arr), k);
    BarColorIsTable(TraverseOps(arr)[k], b);
  }

  /** Once reset, every bar is in the default colour. */
  lemma ResetClearsColors(p: Player, b: int)
    ensures BarColor(CurrentOp(Reset(p)), b) == Default
  {
  }
}

=== FILE: lab.dfy ===
/** The component state around the player: the array on display, the search
    target, the open tab, and the handlers that connect them to the trace
    generators. Every "run" button is disabled while the animation plays, so
    pressing one then does nothing. */
module Lab {
  import opened Arrays
  import opened Trace
  import opened Playback
  import BubbleSort
  import LinearSearch
  import BinarySearch
  import TwoPointer
  import Traverse

  datatype Tab = ArraysTab | SearchingTab | SortingTab | TwoPointersTab

  datatype LabState = LabState(bars: seq<int>, target: int, tab: Tab, player: Player)

  /** The state on first render. */
  const Start := LabState([64, 34, 25, 12, 22, 11, 90], 22, ArraysTab, Initial)

  /** A random bar value: `Math.floor(Math.random() * 100)`. */
  predicate IsBarValue(v: int) {
    0 <= v < 100
  }

  /** The first render shows seven bars of valid values, nothing loaded,
      nothing playing, at the normal delay, on the Arrays tab. */
  lemma StartState()
    ensures |Start.bars| == 7 && forall k :: 0 <= k < 7 ==> IsBarValue(Start.bars[k])
    ensures Start.player.ops == [] && Start.player.step == -1
    ensures !Start.player.playing && Start.player.speed == Normal
    ensures Start.tab == ArraysTab && Start.target == 22
    ensures Valid(Start.player) && CurrentOp(Start.player) == None
  {
  }

  /** Hand `ops` to `runAlgorithm` unless the animation is playing. */
  function Launch(s: LabState, ops: seq<Op>): (r: LabState)
    ensures s.player.playing ==> r == s
    ensures !s.player.playing ==> r.player == Run(s.player, ops)
    ensures r.bars == s.bars && r.target == s.target && r.tab == s.tab
  {
    if s.player.playing then s else s.(player := Run(s.player, ops))
  }

  /** `traverseArray`: loads one TRAVERSE per bar. */
  function RunTraverse(s: LabState): (r: LabState)
    ensures s.player.playing ==> r == s
    ensures !s.player.playing ==> r.player == Run(s.player, Traverse.TraverseOps(s.bars))
    ensures r.bars == s.bars && r.target == s.target && r.tab == s.tab
  {
    Launch(s, Traverse.TraverseOps(s.bars))
  }

  /** `runBubbleSort`: the array on display is left as it is, unsorted; only
      the trace records the sort, and nothing applies it to the bars. */
  function RunBubbleSort(s: LabState): (r: LabState)
    ensures s.player.playing ==> r == s
    ensures !s.player.playing ==> r.player == Run(s.player, BubbleSort.BubbleSortOps(s.bars))
    ensures r.bars == s.bars && r.target == s.target && r.tab == s.tab
  {
    Launch(s, BubbleSort.BubbleSortOps(s.bars))
  }

  /** `runLinearSearch`: searches the array as it is, unsorted. */
  function RunLinearSearch(s: LabState): (r: LabState)
    ensures s.player.playing ==> r == s
    ensures !s.player.playing ==> r.player == Run(s.player, LinearSearch.LinearSearchOps(s.bars, s.target))
    ensures r.bars == s.bars && r.target == s.target && r.tab == s.tab
  {
    Launch(s, LinearSearch.LinearSearchOps(s.bars, s.target))
  }

  /** `runBinarySearch`: `sorted` is what `[...array].sort((a, b) => a - b)`
      returns, the ascending rearrangement of the array; it replaces the
      array on display and is searched. */
  function RunBinarySearch(s: LabState, sorted: seq<int>): (r: LabState)
    requires Sorted(sorted) && multiset(sorted) == multiset(s.bars)
    ensures s.player.playing ==> r == s
    ensures !s.player.playing ==>
      r.bars == sorted && r.player == Run(s.player, BinarySearch.BinarySearchOps(sorted, s.target))
    ensures r.target == s.target && r.tab == s.tab
  {
    if s.player.playing then s
    else Launch(s.(bars := sorted), BinarySearch.BinarySearchOps(sorted, s.target))
  }

  /** `runTwoPointer`: sorts the array on display as `runBinarySearch` does,
      then looks for a pair summing to the target. */
  function RunTwoPointer(s: LabState, sorted: seq<int>): (r: LabState)
    requires Sorted(sorted) && multiset(sorted) == multiset(s.bars)
    ensures s.player.playing ==> r == s
    ensures !s.player.playing ==>
      r.bars == sorted && r.player == Run(s.player, TwoPointer.TwoPointerOps(sorted, s.target))
    ensures r.target == s.target && r.tab == s.tab
  {
    if s.player.playing then s
    else Launch(s.(bars := sorted), TwoPointer.TwoPointerOps(sorted, s.target))
  }

  /** `insertElement`: appends a bar and leaves the animation alone. */
  function InsertBar(s: LabState, v: int): (r: LabState)
    requires IsBarValue(v)
    ensures r.bars == InsertLast(s.bars, v)
    ensures r.player == s.player && r.target == s.target && r.tab == s.tab
  {
    s.(bars := InsertLast(s.bars, v))
  }

  /** `deleteElement`: drops the clicked bar and leaves the animation alone. */
  function DeleteBar(s: LabState, index: int): (r: LabState)
    ensures r.bars == DeleteAt(s.bars, index)
    ensures r.player == s.player && r.target == s.target && r.tab == s.tab
  {
    s.(bars := DeleteAt(s.bars, index))
  }

  /** `generateRandomArray`: eight fresh bar values, and a reset. */
  function RandomArray(s: LabState, values: seq<int>): (r: LabState)
    requires |values| == 8 && forall k :: 0 <= k < 8 ==> IsBarValue(values[k])
    ensures r.bars == values && r.player == Reset(s.player)
    ensures r.target == s.target && r.tab == s.tab
  {
    s.(bars := values, player := Reset(s.player))
  }

  /** A tab button: switch and reset. */
  function SwitchTab(s: LabState, t: Tab): (r: LabState)
    ensures r.tab == t && r.player == Reset(s.player)
    ensures r.bars == s.bars && r.target == s.target
  {
    s.(tab := t, player := Reset(s.player))
  }

  /** The target inputs of the searching and two-pointer tabs. */
  function SetTarget(s: LabState, t: int): (r: LabState)
    ensures r.target == t
    ensures r.bars == s.bars && r.player == s.player && r.tab == s.tab
  {
    s.(target := t)
  }

  /** Applying the loaded trace's SWAPs in order to the array it was
      generated from gives that array in ascending order. The bars on display
      stay as they were (`RunBubbleSort`); this is what the trace records. */
  lemma BubbleSortRunSorts(s: LabState)
    requires !s.player.playing
    ensures var r := RunBubbleSort(s);
      Sorted(Replay(r.bars, r.player.ops)) && multiset(Replay(r.bars, r.player.ops)) == multiset(s.bars)
  {
    BubbleSort.BubbleSortReplaySorts(s.bars);
  }

  /** The linear search run ends with FOUND exactly when the target is in the
      array. */
  lemma LinearSearchRunAnswers(s: LabState)
    requires !s.player.playing
    ensures var t := RunLinearSearch(s).player.ops;
      t[|t| - 1].kind == Found <==> s.target in s.bars
  {
    LinearSearch.LinearSearchWellFormed(s.bars, s.target);
  }

  /** Because the runner sorts first, the binary search run ends with FOUND
      exactly when the target is in the array the user had, whatever its
      order. */
  lemma BinarySearchRunAnswers(s: LabState, sorted: seq<int>)
    requires Sorted(sorted) && multiset(sorted) == multiset(s.bars)
    requires !s.player.playing
    ensures var t := RunBinarySearch(s, sorted).player.ops;
      t[|t| - 1].kind == Found <==> s.target in s.bars
  {
    BinarySearch.BinarySearchComplete(sorted, s.target);
    assert s.target in sorted <==> s.target in multiset(sorted);
    assert s.target in s.bars <==> s.target in multiset(s.bars);
  }

  /** Because the runner sorts first, the two-pointer run ends with FOUND
      exactly when two distinct positions of the array the user had sum to
      the target, whatever its order. */
  lemma TwoPointerRunAnswers(s: LabState, sorted: seq<int>)
    requires Sorted(sorted) && multiset(sorted) == multiset(s.bars)
    requires !s.player.playing
    ensures var t := RunTwoPointer(s, sorted).player.ops;
      t[|t| - 1].kind == Found <==> TwoPointer.HasPair(s.bars, s.target)
  {
    TwoPointer.TwoPointerComplete(sorted, s.target);
    TwoPointer.HasPairPermutation(sorted, s.bars, s.target);
    TwoPointer.HasPairPermutation(s.bars, sorted, s.target);
  }

  /** Every handler keeps the player's step within its trace. */
  lemma HandlersKeepValid(s: LabState, sorted: seq<int>, v: int, index: int, t: Tab,
                           values: seq<int>, x: int)
    requires Valid(s.player)
    requires Sorted(sorted) && multiset(sorted) == multiset(s.bars)
    requires IsBarValue(v)
    requires |values| == 8 && forall k :: 0 <= k < 8 ==> IsBarValue(values[k])
    ensures Valid(RunTraverse(s).player) && Valid(RunBubbleSort(s).player)
    ensures Valid(RunLinearSearch(s).player)
    ensures Valid(RunBinarySearch(s, sorted).player) && Valid(RunTwoPointer(s, sorted).player)
    ensures Valid(InsertBar(s, v).player) && Valid(DeleteBar(s, index).player)
    ensures Valid(RandomArray(s, values).player) && Valid(SwitchTab(s, t).player)
    ensures Valid(SetTarget(s, x).player)
  {
  }
}

=== FILE: linear_search.dfy ===
/** `generateLinearSearchOps`: scan the array from the left, announcing each
    position with a MOVE_POINTER and a COMPARE against the target, and stop at
    the first match with FOUND; a scan that runs off the end emits NOT_FOUND. */
module LinearSearch {
  import opened Trace

  /** The two operations emitted when the scan reaches position `i`. */
  function ProbeOps(i: int, target: int): seq<Op> {
    [Op(MovePointer, [i], None), Op(Compare, [i], Some(target))]
  }

  /** The loop `for (; i < arr.length; i++)` with its early return. */
  function ScanFrom(arr: seq<int>, target: int, i: nat): seq<Op>
    decreases |arr| - i
  {
    if i >= |arr| then [NotFoundOp]
    else if arr[i] == target then ProbeOps(i, target) + [Op(Found, [i], None)]
    else ProbeOps(i, target) + ScanFrom(arr, target, i + 1)
  }

  /** The whole trace for `arr` and `target`: probe pairs, then a single
      FOUND or NOT_FOUND. */
  function LinearSearchOps(arr: seq<int>, target: int): (t: seq<Op>)
    ensures |t| > 0 && IsTerminal(t[|t| - 1].kind)
  {
    ScanFromTerminates(arr, target, 0);
    ScanFrom(arr, target, 0)
  }

  /** What the scan emits after the probe pair at position `i`. */
  function AfterProbe(arr: seq<int>, target: int, i: nat): seq<Op>
    requires i < |arr|
  {
    if arr[i] == target then [Op(Found, [i], None)] else ScanFrom(arr, target, i + 1)
  }

  lemma ScanFromUnfold(arr: seq<int>, target: int, i: nat)
    requires i < |arr|
    ensures ScanFrom(arr, target, i) == ProbeOps(i, target) + AfterProbe(arr, target, i)
  {
  }

  /** `f` is the lowest position holding `target`. */
  predicate IsFirstMatch(arr: seq<int>, target: int, f: int) {
    0 <= f < |arr| && arr[f] == target && forall k :: 0 <= k < f ==> arr[k] != target
  }

  /** The first `2 * m` operations of `t` are the probe pairs of positions
      `i, i + 1, ..., i + m - 1`, in that order. */
  predicate ProbesFrom(t: seq<Op>, i: int, m: nat, target: int) {
    2 * m <= |t| && forall k :: 0 <= k < 2 * m ==> t[k] == ProbeOps(i + k / 2, target)[k % 2]
  }

  lemma ProbesPrepend(i: int, t: seq<Op>, m: nat, target: int)
    requires ProbesFrom(t, i + 1, m, target)
    ensures ProbesFrom(ProbeOps(i, target) + t, i, m + 1, target)
  {
    var s := ProbeOps(i, target) + t;
    forall k | 0 <= k < 2 * (m + 1) ensures s[k] == ProbeOps(i + k / 2, target)[k % 2] {
      if k >= 2 {
        assert s[k] == t[k - 2];
        assert (k - 2) / 2 == k / 2 - 1 && (k - 2) % 2 == k % 2;
      }
    }
  }

  /** From `i`, with the first match at `f`: `f - i + 1` probe pairs, then FOUND([f]). */
  lemma ScanFromFound(arr: seq<int>, target: int, i: nat, f: nat)
    requires i <= f < |arr| && arr[f] == target
    requires forall k :: i <= k < f ==> arr[k] != target
    ensures |ScanFrom(arr, target, i)| == 2 * (f - i + 1) + 1
    ensures ProbesFrom(ScanFrom(arr, target, i), i, f - i + 1, target)
    ensures ScanFrom(arr, target, i)[2 * (f - i + 1)] == Op(Found, [f], None)
  {
    ScanFromFoundEnd(arr, target, i, f);
    ScanFromFoundProbes(arr, target, i, f);
  }

  /** The length and the last operation of a scan that finds `f`. */
  lemma {:induction false} ScanFromFoundEnd(arr: seq<int>, target: int, i: nat, f: nat)
    requires i <= f < |arr| && arr[f] == target
    requires forall k :: i <= k < f ==> arr[k] != target
    ensures |ScanFrom(arr, target, i)| == 2 * (f - i + 1) + 1
    ensures ScanFrom(arr, target, i)[2 * (f - i + 1)] == Op(Found, [f], None)
    decreases f - i
  {
    ScanFromUnfold(arr, target, i);
    if i < f {
      var rest := ScanFrom(arr, target, i + 1);
      assert ScanFrom(arr, target, i) == ProbeOps(i, target) + rest;
      ScanFromFoundEnd(arr, target, i + 1, f);
      assert (ProbeOps(i, target) + rest)[2 * (f - i + 1)] == rest[2 * (f - i)];
    } else {
      assert ScanFrom(arr, target, i) == ProbeOps(i, target) + [Op(Found, [i], None)];
    }
  }

  /** The probe pairs of a scan that finds `f`. */
  lemma {:induction false} ScanFromFoundProbes(arr: seq<int>, target: int, i: nat, f: nat)
    requires i <= f < |arr| && arr[f] == target
    requires forall k :: i <= k < f ==> arr[k] != target
    ensures ProbesFrom(ScanFrom(arr, target, i), i, f - i + 1, target)
    decreases f - i
  {
    if i < f {
      ScanFromFoundProbes(arr, target, i + 1, f);
      ProbesStep(arr, target, i, f - i);
    } else {
      ProbesHit(arr, target, i);
    }
  }

  /** A hit at `i` is one probe pair, then FOUND. */
  lemma ProbesHit(arr: seq<int>, target: int, i: nat)
    requires i < |arr| && arr[i] == target
    ensures ProbesFrom(ScanFrom(arr, target, i), i, 1, target)
  {
    ScanFromUnfold(arr, target, i);
    assert ScanFrom(arr, target, i) == ProbeOps(i, target) + [Op(Found, [i], None)];
    ProbesPrepend(i, [Op(Found, [i], None)], 0, target);
  }

  /** A miss at `i` puts its probe pair in front of the scan from `i + 1`. */
  lemma ProbesStep(arr: seq<int>, target: int, i: nat, m: nat)
    requires i < |arr| && arr[i] != target
    requires ProbesFrom(ScanFrom(arr, target, i + 1), i + 1, m, target)
    ensures ProbesFrom(ScanFrom(arr, target, i), i, m + 1, target)
  {
    var rest := ScanFrom(arr, target, i + 1);
    ScanFromUnfold(arr, target, i);
    assert ScanFrom(arr, target, i) == ProbeOps(i, target) + rest;
    ProbesPrepend(i, rest, m, target);
  }

  /** From `i`, with the first match at `f`: `f - i + 1` COMPAREs. */
  lemma {:induction false} ScanFromFoundCount(arr: seq<int>, target: int, i: nat, f: nat)
    requires i <= f < |arr| && arr[f] == target
    requires forall k :: i <= k < f ==> arr[k] != target
    ensures Count(ScanFrom(arr, target, i), Compare) == f - i + 1
    decreases f - i
  {
    ScanFromUnfold(arr, target, i);
    ProbeCount(i, target);
    CountAppend(ProbeOps(i, target), AfterProbe(arr, target, i), Compare);
    if i < f {
      ScanFromFoundCount(arr, target, i + 1, f);
    }
  }

  lemma ProbeCount(i: int, target: int)
    ensures Count(ProbeOps(i, target), Compare) == 1
  {
    var p := ProbeOps(i, target);
    assert p[1..][1..] == [];
  }

  /** From `i`, with no match at or after `i`: one probe pair per remaining
      position, then NOT_FOUND. */
  lemma {:induction false} ScanFromMissing(arr: seq<int>, target: int, i: nat)
    requires i <= |arr|
    requires forall k :: i <= k < |arr| ==> arr[k] != target
    ensures |ScanFrom(arr, target, i)| == 2 * (|arr| - i) + 1
    ensures ProbesFrom(ScanFrom(arr, target, i), i, |arr| - i, target)
    ensures ScanFrom(arr, target, i)[2 * (|arr| - i)] == NotFoundOp
    decreases |arr| - i
  {
    if i < |arr| {
      var rest := ScanFrom(arr, target, i + 1);
      ScanFromMissing(arr, target, i + 1);
      ProbesStep(arr, target, i, |arr| - i - 1);
      ScanFromUnfold(arr, target, i);
      assert ScanFrom(arr, target, i) == ProbeOps(i, target) + rest;
      assert (ProbeOps(i, target) + rest)[2 * (|arr| - i)] == rest[2 * (|arr| - i - 1)];
    }
  }

  /** From `i`, with no match at or after `i`: one COMPARE per remaining position. */
  lemma {:induction false} ScanFromMissingCount(arr: seq<int>, target: int, i: nat)
    requires i <= |arr|
    requires forall k :: i <= k < |arr| ==> arr[k] != target
    ensures Count(ScanFrom(arr, target, i), Compare) == |arr| - i
    decreases |arr| - i
  {
    if i < |arr| {
      ScanFromUnfold(arr, target, i);
      ScanFromMissingCount(arr, target, i + 1);
      ProbeCount(i, target);
      CountAppend(ProbeOps(i, target), ScanFrom(arr, target, i + 1), Compare);
    }
  }

  /** When `target` occurs, the trace probes positions `0..f` in order, where
      `f` is the first match, and ends with FOUND([f]). */
  lemma LinearSearchFindsFirst(arr: seq<int>, target: int, f: int)
    requires IsFirstMatch(arr, target, f)
    ensures var t := LinearSearchOps(arr, target);
      && |t| == 2 * (f + 1) + 1
      && ProbesFrom(t, 0, f + 1, target)
      && t[|t| - 1] == Op(Found, [f], None)
      && Count(t, Compare) == f + 1
  {
    ScanFromFound(arr, target, 0, f);
    ScanFromFoundCount(arr, target, 0, f);
  }

  /** When `target` does not occur, the trace probes every position in order,
      holds exactly `|arr|` COMPAREs and ends with NOT_FOUND; for an empty
      array it is `[NOT_FOUND]`. */
  lemma LinearSearchMissing(arr: seq<int>, target: int)
    requires target !in arr
    ensures var t := LinearSearchOps(arr, target);
      && |t| == 2 * |arr| + 1
      && ProbesFrom(t, 0, |arr|, target)
      && t[|t| - 1] == NotFoundOp
      && Count(t, Compare) == |arr|
      && (arr == [] ==> t == [NotFoundOp])
  {
    ScanFromMissing(arr, target, 0);
    ScanFromMissingCount(arr, target, 0);
  }

  /** From any `i`, the trace names only positions of the array. */
  lemma {:induction false} ScanFromInBounds(arr: seq<int>, target: int, i: nat)
    requires i <= |arr|
    ensures IndicesBelow(ScanFrom(arr, target, i), |arr|)
    decreases |arr| - i
  {
    if i < |arr| {
      ScanFromUnfold(arr, target, i);
      if arr[i] != target {
        ScanFromInBounds(arr, target, i + 1);
      }
      IndicesBelowAppend(ProbeOps(i, target), AfterProbe(arr, target, i), |arr|);
    }
  }

  /** From any `i`, the trace ends with its only terminal operation, which is
      FOUND exactly when `target` occurs at or after `i`. */
  lemma {:induction false} ScanFromTerminates(arr: seq<int>, target: int, i: nat)
    requires i <= |arr|
    ensures EndsWithSingleTerminal(ScanFrom(arr, target, i))
    ensures var t := ScanFrom(arr, target, i);
      t[|t| - 1].kind == Found <==> OccursFrom(arr, target, i)
    decreases |arr| - i
  {
    if i < |arr| {
      var probe := ProbeOps(i, target);
      var after := AfterProbe(arr, target, i);
      assert NoTerminal(probe);
      ScanFromUnfold(arr, target, i);
      if arr[i] != target {
        ScanFromTerminates(arr, target, i + 1);
        assert OccursFrom(arr, target, i) == OccursFrom(arr, target, i + 1);
      } else {
        assert OccursFrom(arr, target, i);
      }
      EndsWithSingleTerminalPrepend(probe, after);
    }
  }

  /** `target` occurs at some position from `i` on. */
  predicate OccursFrom(arr: seq<int>, target: int, i: int) {
    exists k :: 0 <= k < |arr| && i <= k && arr[k] == target
  }

  /** Every trace stays within the array, ends with its only terminal
      operation, and ends with FOUND exactly when `target` occurs. */
  lemma LinearSearchWellFormed(arr: seq<int>, target: int)
    ensures IndicesBelow(LinearSearchOps(arr, target), |arr|)
    ensures EndsWithSingleTerminal(LinearSearchOps(arr, target))
    ensures var t := LinearSearchOps(arr, target);
      t[|t| - 1].kind == Found <==> target in arr
  {
    ScanFromInBounds(arr, target, 0);
    ScanFromTerminates(arr, target, 0);
    assert OccursFrom(arr, target, 0) <==> target in arr;
  }

  lemma ScanStep(arr: seq<int>, target: int, i: nat, done: seq<Op>, whole: seq<Op>)
    requires i < |arr|
    requires done + ScanFrom(arr, target, i) == whole
    ensures arr[i] == target ==> done + ProbeOps(i, target) + [Op(Found, [i], None)] == whole
    ensures arr[i] != target ==> done + ProbeOps(i, target) + ScanFrom(arr, target, i + 1) == whole
  {
    ScanFromUnfold(arr, target, i);
    assert done + ProbeOps(i, target) + AfterProbe(arr, target, i) == whole;
  }

  /** The loop of `generateLinearSearchOps` as written, with its early return. */
  method GenerateLinearSearchOps(arr: seq<int>, target: int) returns (ops: seq<Op>)
    ensures ops == LinearSearchOps(arr, target)
    ensures EndsWithSingleTerminal(ops) && IndicesBelow(ops, |arr|)
    ensures ops[|ops| - 1].kind == Found <==> target in arr
  {
    ghost var whole := ScanFrom(arr, target, 0);
    ops := [];
    var i := 0;
    while i < |arr|
      invariant i <= |arr|
      invariant ops + ScanFrom(arr, target, i) == whole
    {
      ghost var before := ops;
      ops := ops + [Op(MovePointer, [i], None)];
      ops := ops + [Op(Compare, [i], Some(target))];
      assert ops == before + ProbeOps(i, target);
      ScanStep(arr, target, i, before, whole);
      if arr[i] == target {
        ops := ops + [Op(Found, [i], None)];
        LinearSearchWellFormed(arr, target);
        return;
      }
      i := i + 1;
    }
    ops := ops + [NotFoundOp];
    LinearSearchWellFormed(arr, target);
  }
}

=== FILE: playback.dfy ===
/** The playback state machine: the trace being shown, the step on screen,
    whether the animation runs, and its delay. One `Tick` is one run of the
    animation effect in which a pending timer fires; the delay decides only
    when that happens, never what it does. */
module Playback {
  import opened Trace

  /** `operations`, `currentStep`, `isPlaying` and `speed`. A step of -1 means
      nothing is on screen yet. */
  datatype Player = Player(ops: seq<Op>, step: int, playing: bool, speed: int)

  /** The delay the player starts with, in milliseconds. */
  const Normal := 500

  /** Nothing loaded, nothing shown, paused, at the normal delay. */
  const Initial := Player([], -1, false, Normal)

  /** The last step the player ever reaches. `runAlgorithm` sets step 0 even
      for an empty trace, so 0 is allowed then. */
  function LastStep(ops: seq<Op>): nat {
    if |ops| == 0 then 0 else |ops| - 1
  }

  /** The step stays between "nothing shown" and the last step. */
  predicate Valid(p: Player) {
    -1 <= p.step <= LastStep(p.ops)
  }

  /** One run of the animation effect: while playing and not at the last
      operation, the timer advances the step by one; once at or past the last
      operation, playing stops; when paused before the end, nothing happens. */
  function Tick(p: Player): (r: Player)
    ensures r.ops == p.ops && r.speed == p.speed
    ensures r.step == p.step + 1 <==> p.playing && p.step < |p.ops| - 1
    ensures p.playing && p.step < |p.ops| - 1 ==> r.playing
    ensures r.step == p.step || r.step == p.step + 1
    ensures p.step >= |p.ops| - 1 ==> !r.playing
    ensures r.playing ==> p.playing
    ensures !p.playing ==> r == p
    ensures Valid(p) ==> Valid(r)
  {
    if p.playing && p.step < |p.ops| - 1 then p.(step := p.step + 1)
    else if p.step >= |p.ops| - 1 then p.(playing := false)
    else p
  }

  /** `k` runs of the animation effect in a row. */
  function Ticks(p: Player, k: nat): Player
    decreases k
  {
    if k == 0 then p else Ticks(Tick(p), k - 1)
  }

  /** `resetAnimation`: pause and show nothing; the trace stays loaded. */
  function Reset(p: Player): (r: Player)
    ensures r.ops == p.ops && r.speed == p.speed
    ensures !r.playing && r.step == -1
    ensures Valid(r)
  {
    p.(playing := false, step := -1)
  }

  /** `runAlgorithm`: reset, load the new trace, show its first operation and
      play. */
  function Run(p: Player, ops: seq<Op>): (r: Player)
    ensures r.ops == ops && r.speed == p.speed
    ensures r.playing && r.step == 0
    ensures Valid(r)
  {
    Reset(p).(ops := ops, step := 0, playing := true)
  }

  /** The Play/Pause button: disabled while no trace is loaded, otherwise it
      flips `isPlaying`. */
  function Toggle(p: Player): (r: Player)
    ensures r.ops == p.ops && r.step == p.step && r.speed == p.speed
    ensures r.playing == (if |p.ops| == 0 then p.playing else !p.playing)
    ensures Valid(p) ==> Valid(r)
  {
    if |p.ops| == 0 then p else p.(playing := !p.playing)
  }

  /** The speed selector. */
  function SetSpeed(p: Player, delay: int): (r: Player)
    ensures r.speed == delay
    ensures r.ops == p.ops && r.step == p.step && r.playing == p.playing
    ensures Valid(p) ==> Valid(r)
  {
    p.(speed := delay)
  }

  /** `currentOp`: the operation at the current step, or nothing when the step
      is outside the trace. */
  function CurrentOp(p: Player): (r: Option<Op>)
    ensures r.Some? <==> 0 <= p.step < |p.ops|
    ensures r.Some? ==> r.value == p.ops[p.step]
  {
    if 0 <= p.step < |p.ops| then Some(p.ops[p.step]) else None
  }

  /** The delay never changes what the effect does. */
  lemma SpeedIrrelevant(p: Player, delay: int)
    ensures Tick(SetSpeed(p, delay)) == SetSpeed(Tick(p), delay)
  {
  }

  /** Pressing Play/Pause twice changes nothing. */
  lemma ToggleTwice(p: Player)
    ensures Toggle(Toggle(p)) == p
  {
  }

  /** Resetting twice is resetting once, and a reset player shows nothing and
      stays put. */
  lemma ResetSettles(p: Player)
    ensures Reset(Reset(p)) == Reset(p)
    ensures CurrentOp(Reset(p)) == None
    ensures Tick(Reset(p)) == Reset(p)
  {
  }

  /** Running an empty trace shows nothing, and the first effect stops it at
      step 0 (one past the end of the empty trace). */
  lemma RunEmptyStops(p: Player)
    ensures var r := Tick(Run(p, []));
      !r.playing && r.step == 0 && CurrentOp(r) == None && Tick(r) == r
  {
  }

  function Min(a: int, b: int): int {
    if a <= b then a else b
  }

  /** A playing player at step `j` moves one step per effect until the last
      operation, then stops there on the next effect and stays stopped. */
  lemma {:induction false} TicksFrom(p: Player, k: nat)
    requires p.playing && -1 <= p.step <= |p.ops| - 1
    ensures Ticks(p, k).ops == p.ops
    ensures Ticks(p, k).step == Min(p.step + k, |p.ops| - 1)
    ensures Ticks(p, k).playing <==> p.step + k < |p.ops|
    decreases k
  {
    if k > 0 {
      var q := Tick(p);
      if p.step < |p.ops| - 1 {
        TicksFrom(q, k - 1);
      } else {
        TicksStopped(q, k - 1);
      }
    }
  }

  /** A paused player stays as it is, however many effects run. */
  lemma {:induction false} TicksStopped(p: Player, k: nat)
    requires !p.playing
    ensures Ticks(p, k) == p
    decreases k
  {
    if k > 0 {
      TicksStopped(p, k - 1);
    }
  }

  /** After `runAlgorithm` on a trace of `n >= 1` operations, `k` effects show
      step `min(k, n-1)`, and the animation plays for exactly `n` effects. */
  lemma PlayThrough(p: Player, ops: seq<Op>, k: nat)
    requires |ops| >= 1
    ensures Ticks(Run(p, ops), k).step == Min(k, |ops| - 1)
    ensures Ticks(Run(p, ops), k).playing <==> k < |ops|
  {
    TicksFrom(Run(p, ops), k);
  }

  /** Played from the start, every operation is shown, in order, each for one
      effect: after `j` effects the screen shows operation `j`. */
  lemma ShowsEveryOpInOrder(p: Player, ops: seq<Op>, j: nat)
    requires j < |ops|
    ensures CurrentOp(Ticks(Run(p, ops), j)) == Some(ops[j])
  {
    TicksFrom(Run(p, ops), j);
  }

  /** Played after a reset, the first effect shows operation 0 and the rest
      follow as from `runAlgorithm`. */
  lemma ResumeFromReset(p: Player, k: nat)
    requires |p.ops| >= 1
    ensures Ticks(Toggle(Reset(p)), k + 1).step == Min(k, |p.ops| - 1)
  {
    TicksFrom(Toggle(Reset(p)), k + 1);
  }

  /** The step never skips: every step between the start and the current one
      was on screen after some earlier number of effects. */
  lemma NoStepSkipped(p: Player, ops: seq<Op>, k: nat, s: int)
    requires |ops| >= 1
    requires 0 <= s <= Ticks(Run(p, ops), k).step
    ensures exists j :: 0 <= j <= k && Ticks(Run(p, ops), j).step == s
  {
    TicksFrom(Run(p, ops), k);
    TicksFrom(Run(p, ops), s);
    assert Ticks(Run(p, ops), s).step == s;
  }
}

=== FILE: trace.dfy ===
/** The vocabulary of the operation trace engine: the closed set of operation
    kinds, the operation record, and facts about whole traces that every
    generator is measured against. */
module Trace {
  import opened Arrays

  datatype Option<+T> = None | Some(value: T)

  /** The closed enumeration `OperationType`. INSERT and DELETE belong to the
      vocabulary, but no generator emits them. */
  datatype Kind =
    | Compare | Swap | Insert | Delete | Traverse
    | Found | NotFound | MovePointer | Complete

  /** One operation `{type, indices, value?}`. The source leaves `indices` off
      COMPLETE and NOT_FOUND; here that is the empty sequence. */
  datatype Op = Op(kind: Kind, indices: seq<int>, value: Option<int>)

  /** The string each `OperationType` member stands for: a non-empty
      upper-case identifier. */
  function KindName(k: Kind): (r: string)
    ensures |r| >= 4
    ensures forall i :: 0 <= i < |r| ==> 'A' <= r[i] <= 'Z' || r[i] == '_'
  {
    match k
    case Compare => "COMPARE"
    case Swap => "SWAP"
    case Insert => "INSERT"
    case Delete => "DELETE"
    case Traverse => "TRAVERSE"
    case Found => "FOUND"
    case NotFound => "NOT_FOUND"
    case MovePointer => "MOVE_POINTER"
    case Complete => "COMPLETE"
  }

  /** The nine names are pairwise distinct, so comparing `op.type` strings
      tells the kinds apart exactly as comparing the constructors does. */
  lemma KindNameInjective(k1: Kind, k2: Kind)
    ensures KindName(k1) == KindName(k2) <==> k1 == k2
  {
  }

  const CompleteOp := Op(Complete, [], None)
  const NotFoundOp := Op(NotFound, [], None)

  /** The operations a trace may end with. */
  predicate IsTerminal(k: Kind) {
    k == Found || k == NotFound || k == Complete
  }

  /** Every index of every operation names a position of an array of length `n`. */
  predicate IndicesBelow(t: seq<Op>, n: int) {
    forall k, x :: 0 <= k < |t| && 0 <= x < |t[k].indices| ==> 0 <= t[k].indices[x] < n
  }

  /** The trace is non-empty and its only terminal operation is its last one. */
  predicate EndsWithSingleTerminal(t: seq<Op>) {
    && |t| > 0
    && IsTerminal(t[|t| - 1].kind)
    && forall k :: 0 <= k < |t| - 1 ==> !IsTerminal(t[k].kind)
  }

  /** No operation of `t` is terminal. */
  predicate NoTerminal(t: seq<Op>) {
    forall k :: 0 <= k < |t| ==> !IsTerminal(t[k].kind)
  }

  lemma IndicesBelowAppend(t1: seq<Op>, t2: seq<Op>, n: int)
    requires IndicesBelow(t1, n) && IndicesBelow(t2, n)
    ensures IndicesBelow(t1 + t2, n)
  {
    var t := t1 + t2;
    forall k, x | 0 <= k < |t| && 0 <= x < |t[k].indices| ensures 0 <= t[k].indices[x] < n {
      if k < |t1| { assert t[k] == t1[k]; } else { assert t[k] == t2[k - |t1|]; }
    }
  }

  /** Operations without a terminal one, put in front of a trace that ends with
      its single terminal operation, keep that property. */
  lemma EndsWithSingleTerminalPrepend(p: seq<Op>, t: seq<Op>)
    requires NoTerminal(p) && EndsWithSingleTerminal(t)
    ensures EndsWithSingleTerminal(p + t)
    ensures (p + t)[|p + t| - 1] == t[|t| - 1]
  {
    var s := p + t;
    forall k | 0 <= k < |s| - 1 ensures !IsTerminal(s[k].kind) {
      if k < |p| { assert s[k] == p[k]; } else { assert s[k] == t[k - |p|]; }
    }
  }

  /** The number of operations of the given kind. */
  function Count(t: seq<Op>, kind: Kind): (c: nat)
    ensures c <= |t|
  {
    if t == [] then 0
    else (if t[0].kind == kind then 1 else 0) + Count(t[1..], kind)
  }

  /** A kind is counted zero times exactly when no operation has it. */
  lemma {:induction false} CountZero(t: seq<Op>, kind: Kind)
    ensures Count(t, kind) == 0 <==> forall k :: 0 <= k < |t| ==> t[k].kind != kind
    decreases |t|
  {
    if t != [] {
      CountZero(t[1..], kind);
      assert forall k :: 1 <= k < |t| ==> t[k] == t[1..][k - 1];
    }
  }

  /** A trace made only of one kind counts every operation. */
  lemma {:induction false} CountAll(t: seq<Op>, kind: Kind)
    requires forall k :: 0 <= k < |t| ==> t[k].kind == kind
    ensures Count(t, kind) == |t|
    decreases |t|
  {
    if t != [] {
      assert forall k :: 0 <= k < |t[1..]| ==> t[1..][k] == t[k + 1];
      CountAll(t[1..], kind);
    }
  }

  lemma {:induction false} CountAppend(t1: seq<Op>, t2: seq<Op>, kind: Kind)
    ensures Count(t1 + t2, kind) == Count(t1, kind) + Count(t2, kind)
    decreases |t1|
  {
    if t1 == [] {
      assert t1 + t2 == t2;
    } else {
      assert (t1 + t2)[1..] == t1[1..] + t2;
      CountAppend(t1[1..], t2, kind);
    }
  }

  /** What one operation does to an array when the trace's SWAPs are applied
      in order: a SWAP of two valid positions exchanges them; every other
      operation leaves the array as it is. The program itself never applies a
      trace; this is the meaning the trace carries for the algorithm's copy. */
  function Apply(a: seq<int>, op: Op): (r: seq<int>)
    ensures |r| == |a|
    ensures op.kind != Swap ==> r == a
  {
    if op.kind == Swap && |op.indices| == 2
       && 0 <= op.indices[0] < |a| && 0 <= op.indices[1] < |a|
    then Exchange(a, op.indices[0], op.indices[1])
    else a
  }

  /** The array obtained by applying every operation of `t` in order. */
  function Replay(a: seq<int>, t: seq<Op>): (r: seq<int>)
    ensures |r| == |a|
    decreases |t|
  {
    if t == [] then a else Replay(Apply(a, t[0]), t[1..])
  }

  /** Replaying any trace only permutes the array. */
  lemma {:induction false} ReplayPermutes(a: seq<int>, t: seq<Op>)
    ensures multiset(Replay(a, t)) == multiset(a)
    decreases |t|
  {
    if t != [] {
      var op := t[0];
      if op.kind == Swap && |op.indices| == 2
         && 0 <= op.indices[0] < |a| && 0 <= op.indices[1] < |a| {
        ExchangePermutes(a, op.indices[0], op.indices[1]);
      }
      ReplayPermutes(Apply(a, op), t[1..]);
    }
  }

  /** Replaying a trace without SWAP leaves the array as it is. */
  lemma {:induction false} ReplayWithoutSwaps(a: seq<int>, t: seq<Op>)
    requires forall k :: 0 <= k < |t| ==> t[k].kind != Swap
    ensures Replay(a, t) == a
    decreases |t|
  {
    if t != [] {
      assert forall k :: 0 <= k < |t[1..]| ==> t[1..][k] == t[k + 1];
      ReplayWithoutSwaps(a, t[1..]);
    }
  }

  lemma {:induction false} ReplayAppend(a: seq<int>, t1: seq<Op>, t2: seq<Op>)
    ensures Replay(a, t1 + t2) == Replay(Replay(a, t1), t2)
    decreases |t1|
  {
    if t1 == [] {
      assert t1 + t2 == t2;
    } else {
      assert (t1 + t2)[1..] == t1[1..] + t2;
      ReplayAppend(Apply(a, t1[0]), t1[1..], t2);
    }
  }
}

=== FILE: traverse.dfy ===
/** `traverseArray`: one TRAVERSE operation per bar, in index order, and
    nothing after the last one. */
module Traverse {
  import opened Trace

  /** `array.map((_, i) => ({type: TRAVERSE, indices: [i]}))`. */
  function TraverseOps(arr: seq<int>): (t: seq<Op>)
    ensures |t| == |arr|
    ensures IndicesBelow(t, |arr|) && NoTerminal(t)
  {
    seq(|arr|, i => Op(Traverse, [i], None))
  }

  /** Visit positions `i, i+1, ..., n-1` one by one: the loop-shaped reading of
      the traversal, which the `map` form is proved to match. */
  function VisitFrom(n: int, i: int): seq<Op>
    decreases n - i
  {
    if i >= n then [] else [Op(Traverse, [i], None)] + VisitFrom(n, i + 1)
  }

  lemma {:induction false} VisitFromSuffix(arr: seq<int>, i: nat)
    requires i <= |arr|
    ensures VisitFrom(|arr|, i) == TraverseOps(arr)[i..]
    decreases |arr| - i
  {
    if i < |arr| {
      VisitFromSuffix(arr, i + 1);
      assert TraverseOps(arr)[i..] == [TraverseOps(arr)[i]] + TraverseOps(arr)[i + 1..];
    }
  }

  /** The `map` form visits the same positions in the same order as the loop. */
  lemma TraverseIsVisit(arr: seq<int>)
    ensures TraverseOps(arr) == VisitFrom(|arr|, 0)
  {
    VisitFromSuffix(arr, 0);
    assert TraverseOps(arr)[0..] == TraverseOps(arr);
  }

  /** Every index names a bar, and, unlike the other traces, there is no
      terminal operation: an empty array gives an empty trace. */
  lemma TraverseInRange(arr: seq<int>)
    ensures IndicesBelow(TraverseOps(arr), |arr|)
    ensures NoTerminal(TraverseOps(arr))
    ensures arr == [] ==> TraverseOps(arr) == []
  {
  }

  /** Exactly one TRAVERSE per bar. */
  lemma TraverseCount(arr: seq<int>)
    ensures Count(TraverseOps(arr), Traverse) == |arr|
  {
    CountAll(TraverseOps(arr), Traverse);
  }

  /** Replaying the traversal leaves every bar where it was. */
  lemma TraverseKeepsArray(arr: seq<int>)
    ensures Replay(arr, TraverseOps(arr)) == arr
  {
    ReplayWithoutSwaps(arr, TraverseOps(arr));
  }
}

=== FILE: two_pointer.dfy ===
/** `generateTwoPointerOps`: walk `left` up from the start and `right` down
    from the end while `left < right`, announcing each pair with a
    MOVE_POINTER `[left, right]` and a COMPARE carrying `arr[left] + arr[right]`,
    until the sum meets the target (FOUND `[left, right]`) or the pointers meet
    (NOT_FOUND). A sum below the target moves `left`, a sum above it moves
    `right`. The callers sort the array first; the model takes sortedness as a
    hypothesis only where the result depends on it. */
module TwoPointer {
  import opened Arrays
  import opened Trace

  /** The two operations emitted for the pair `(left, right)` with sum `sum`. */
  function ProbeOps(left: int, right: int, sum: int): seq<Op> {
    [Op(MovePointer, [left, right], None), Op(Compare, [left, right], Some(sum))]
  }

  /** The loop `while (left < right)` from the pointers `left` and `right`. */
  function PairFrom(arr: seq<int>, target: int, left: nat, right: int): seq<Op>
    requires right < |arr|
    decreases right - left
  {
    if left >= right then [NotFoundOp]
    else
      var sum := arr[left] + arr[right];
      if sum == target then ProbeOps(left, right, sum) + [Op(Found, [left, right], None)]
      else if sum < target then ProbeOps(left, right, sum) + PairFrom(arr, target, left + 1, right)
      else ProbeOps(left, right, sum) + PairFrom(arr, target, left, right - 1)
  }

  /** The whole trace for `arr` and `target`: probe pairs, then a single
      FOUND or NOT_FOUND. */
  function TwoPointerOps(arr: seq<int>, target: int): (t: seq<Op>)
    ensures |t| > 0 && IsTerminal(t[|t| - 1].kind)
  {
    PairFromTerminates(arr, target, 0, |arr| - 1);
    PairFrom(arr, target, 0, |arr| - 1)
  }

  /** What the loop emits after the probe pair of `left < right`. */
  function AfterProbe(arr: seq<int>, target: int, left: nat, right: int): seq<Op>
    requires left < right < |arr|
  {
    var sum := arr[left] + arr[right];
    if sum == target then [Op(Found, [left, right], None)]
    else if sum < target then PairFrom(arr, target, left + 1, right)
    else PairFrom(arr, target, left, right - 1)
  }

  lemma PairFromUnfold(arr: seq<int>, target: int, left: nat, right: int)
    requires left < right < |arr|
    ensures PairFrom(arr, target, left, right)
            == ProbeOps(left, right, arr[left] + arr[right]) + AfterProbe(arr, target, left, right)
  {
  }

  /** Two positions `0 <= i < j < n`, as every two-pointer operation names. */
  predicate IsPair(indices: seq<int>, n: int) {
    |indices| == 2 && 0 <= indices[0] < indices[1] < n
  }

  /** What each kind of operation may say in a two-pointer trace over `arr`:
      MOVE_POINTER names an ordered pair, COMPARE names one and carries its
      sum, FOUND names a pair summing to the target, NOT_FOUND names nothing. */
  predicate PairOpFits(op: Op, arr: seq<int>, target: int) {
    match op.kind
    case MovePointer => IsPair(op.indices, |arr|)
    case Compare =>
      IsPair(op.indices, |arr|) && op.value == Some(arr[op.indices[0]] + arr[op.indices[1]])
    case Found =>
      IsPair(op.indices, |arr|) && arr[op.indices[0]] + arr[op.indices[1]] == target
    case NotFound => op.indices == []
    case _ => false
  }

  predicate AllPairOpsFit(t: seq<Op>, arr: seq<int>, target: int) {
    forall k :: 0 <= k < |t| ==> PairOpFits(t[k], arr, target)
  }

  lemma AllPairOpsFitAppend(t1: seq<Op>, t2: seq<Op>, arr: seq<int>, target: int)
    requires AllPairOpsFit(t1, arr, target) && AllPairOpsFit(t2, arr, target)
    ensures AllPairOpsFit(t1 + t2, arr, target)
  {
    forall k | 0 <= k < |t1 + t2| ensures PairOpFits((t1 + t2)[k], arr, target) {
      if k < |t1| { assert (t1 + t2)[k] == t1[k]; } else { assert (t1 + t2)[k] == t2[k - |t1|]; }
    }
  }

  lemma AllPairOpsFitInBounds(t: seq<Op>, arr: seq<int>, target: int)
    requires AllPairOpsFit(t, arr, target)
    ensures IndicesBelow(t, |arr|)
  {
    forall k, x | 0 <= k < |t| && 0 <= x < |t[k].indices| ensures 0 <= t[k].indices[x] < |arr| {
      assert PairOpFits(t[k], arr, target);
    }
  }

  /** The probe pair of `left < right` fits, whatever the array holds. */
  lemma ProbePairFits(arr: seq<int>, target: int, left: nat, right: int)
    requires left < right < |arr|
    ensures AllPairOpsFit(ProbeOps(left, right, arr[left] + arr[right]), arr, target)
  {
    var p := ProbeOps(left, right, arr[left] + arr[right]);
    assert PairOpFits(p[0], arr, target) && PairOpFits(p[1], arr, target);
  }

  lemma {:induction false} PairFromFits(arr: seq<int>, target: int, left: nat, right: int)
    requires right < |arr|
    ensures AllPairOpsFit(PairFrom(arr, target, left, right), arr, target)
    decreases right - left
  {
    if left < right {
      var sum := arr[left] + arr[right];
      var after := AfterProbe(arr, target, left, right);
      PairFromUnfold(arr, target, left, right);
      ProbePairFits(arr, target, left, right);
      if sum == target {
        assert after == [Op(Found, [left, right], None)];
        assert PairOpFits(after[0], arr, target);
      } else if sum < target {
        assert after == PairFrom(arr, target, left + 1, right);
        PairFromFits(arr, target, left + 1, right);
      } else {
        assert after == PairFrom(arr, target, left, right - 1);
        PairFromFits(arr, target, left, right - 1);
      }
      AllPairOpsFitAppend(ProbeOps(left, right, sum), after, arr, target);
    } else {
      assert PairOpFits(NotFoundOp, arr, target);
    }
  }

  lemma {:induction false} PairFromTerminates(arr: seq<int>, target: int, left: nat, right: int)
    requires right < |arr|
    ensures EndsWithSingleTerminal(PairFrom(arr, target, left, right))
    decreases right - left
  {
    if left < right {
      var sum := arr[left] + arr[right];
      var after := AfterProbe(arr, target, left, right);
      PairFromUnfold(arr, target, left, right);
      if sum == target {
        assert after == [Op(Found, [left, right], None)];
      } else if sum < target {
        assert after == PairFrom(arr, target, left + 1, right);
        PairFromTerminates(arr, target, left + 1, right);
      } else {
        assert after == PairFrom(arr, target, left, right - 1);
        PairFromTerminates(arr, target, left, right - 1);
      }
      assert NoTerminal(ProbeOps(left, right, sum));
      EndsWithSingleTerminalPrepend(ProbeOps(left, right, sum), after);
    }
  }

  /** A run from `(left, right)` ends the way its continuation ends. */
  lemma PairFromLast(arr: seq<int>, target: int, left: nat, right: int)
    requires left < right < |arr|
    ensures var t := PairFrom(arr, target, left, right);
      var after := AfterProbe(arr, target, left, right);
      |after| > 0 && t[|t| - 1] == after[|after| - 1]
  {
    PairFromUnfold(arr, target, left, right);
    PairFromTerminates(arr, target, left, right);
  }

  /** Each round moves one pointer by one, so the gap `right - left` bounds
      the number of probe pairs. */
  lemma {:induction false} PairFromLinear(arr: seq<int>, target: int, left: nat, right: int)
    requires right < |arr|
    ensures left < right ==> |PairFrom(arr, target, left, right)| <= 2 * (right - left) + 1
    ensures right <= left ==> PairFrom(arr, target, left, right) == [NotFoundOp]
    decreases right - left
  {
    if left < right {
      var sum := arr[left] + arr[right];
      var after := AfterProbe(arr, target, left, right);
      PairFromUnfold(arr, target, left, right);
      if sum < target {
        assert after == PairFrom(arr, target, left + 1, right);
        PairFromLinear(arr, target, left + 1, right);
      } else if sum > target {
        assert after == PairFrom(arr, target, left, right - 1);
        PairFromLinear(arr, target, left, right - 1);
      }
    }
  }

  /** Some pair of distinct positions sums to `target`. */
  predicate HasPair(arr: seq<int>, target: int) {
    exists i, j :: 0 <= i < j < |arr| && arr[i] + arr[j] == target
  }

  /** Values `x` and `y` held often enough by `b` sit at two distinct
      positions. */
  lemma TwoPositions(b: seq<int>, x: int, y: int)
    requires x in multiset(b) && y in multiset(b)
    requires x == y ==> multiset(b)[x] >= 2
    ensures exists i, j :: 0 <= i < |b| && 0 <= j < |b| && i != j && b[i] == x && b[j] == y
  {
    assert x in b;
    var i :| 0 <= i < |b| && b[i] == x;
    if x != y {
      assert y in b;
      var j :| 0 <= j < |b| && b[j] == y;
      assert i != j;
    } else {
      var rest := b[..i] + b[i + 1..];
      assert b == b[..i] + [b[i]] + b[i + 1..];
      assert multiset(rest)[x] == multiset(b)[x] - 1;
      assert x in rest;
      var k :| 0 <= k < |rest| && rest[k] == x;
      var j := if k < i then k else k + 1;
      assert b[j] == x;
      assert i != j;
    }
  }

  /** Whether some pair sums to the target depends only on the values, not on
      where they sit. */
  lemma HasPairPermutation(a: seq<int>, b: seq<int>, target: int)
    requires multiset(a) == multiset(b)
    ensures HasPair(a, target) ==> HasPair(b, target)
  {
    if HasPair(a, target) {
      var i, j :| 0 <= i < j < |a| && a[i] + a[j] == target;
      var x, y := a[i], a[j];
      assert x in multiset(a) && y in multiset(a);
      if x == y {
        assert a == a[..i] + [x] + a[i + 1..j] + [y] + a[j + 1..];
        assert multiset(a)[x] >= 2;
      }
      TwoPositions(b, x, y);
      var i', j' :| 0 <= i' < |b| && 0 <= j' < |b| && i' != j' && b[i'] == x && b[j'] == y;
      if i' < j' {
        assert b[i'] + b[j'] == target;
      } else {
        assert b[j'] + b[i'] == target;
      }
    }
  }

  /** No pair with a position outside `left..right` sums to `target`. */
  predicate NoPairOutside(arr: seq<int>, target: int, left: int, right: int) {
    forall i, j :: 0 <= i < j < |arr| && (i < left || right < j) ==> arr[i] + arr[j] != target
  }

  /** On ascending input, a sum below the target rules out every pair that
      uses `left`: its partners are at most `arr[right]`. */
  lemma NarrowUp(arr: seq<int>, target: int, left: nat, right: int)
    requires left < right < |arr| && Sorted(arr)
    requires arr[left] + arr[right] < target
    requires NoPairOutside(arr, target, left, right)
    ensures NoPairOutside(arr, target, left + 1, right)
  {
    forall i, j | 0 <= i < j < |arr| && (i < left + 1 || right < j)
      ensures arr[i] + arr[j] != target
    {
      if i == left && j <= right {
        assert arr[j] <= arr[right];
      }
    }
  }

  /** On ascending input, a sum above the target rules out every pair that
      uses `right`: its partners are at least `arr[left]`. */
  lemma NarrowDown(arr: seq<int>, target: int, left: nat, right: int)
    requires left < right < |arr| && Sorted(arr)
    requires arr[left] + arr[right] > target
    requires NoPairOutside(arr, target, left, right)
    ensures NoPairOutside(arr, target, left, right - 1)
  {
    forall i, j | 0 <= i < j < |arr| && (i < left || right - 1 < j)
      ensures arr[i] + arr[j] != target
    {
      if j == right && left <= i {
        assert arr[left] <= arr[i];
      }
    }
  }

  /** Once the pointers meet, every pair has a position outside the window. */
  lemma MetPointersNoPair(arr: seq<int>, target: int, left: int, right: int)
    requires right <= left && NoPairOutside(arr, target, left, right)
    ensures !HasPair(arr, target)
  {
  }

  /** On ascending input, with no pair outside the window, the run ends with
      NOT_FOUND only when no pair sums to the target. */
  lemma {:induction false} PairFromComplete(arr: seq<int>, target: int, left: nat, right: int)
    requires right < |arr| && Sorted(arr)
    requires NoPairOutside(arr, target, left, right)
    ensures var t := PairFrom(arr, target, left, right);
      t[|t| - 1].kind == NotFound ==> !HasPair(arr, target)
    decreases right - left
  {
    if left < right {
      var sum := arr[left] + arr[right];
      var after := AfterProbe(arr, target, left, right);
      PairFromLast(arr, target, left, right);
      if sum == target {
        assert after == [Op(Found, [left, right], None)];
      } else if sum < target {
        assert after == PairFrom(arr, target, left + 1, right);
        NarrowUp(arr, target, left, right);
        PairFromComplete(arr, target, left + 1, right);
      } else {
        assert after == PairFrom(arr, target, left, right - 1);
        NarrowDown(arr, target, left, right);
        PairFromComplete(arr, target, left, right - 1);
      }
    } else {
      MetPointersNoPair(arr, target, left, right);
    }
  }

  /** Without any assumption on the order of `arr`: every operation names an
      ordered pair of positions (or none, for NOT_FOUND), every COMPARE
      carries its pair's sum, FOUND names only a pair summing to the target,
      and the trace ends with its only terminal operation. */
  lemma TwoPointerSound(arr: seq<int>, target: int)
    ensures AllPairOpsFit(TwoPointerOps(arr, target), arr, target)
    ensures IndicesBelow(TwoPointerOps(arr, target), |arr|)
    ensures EndsWithSingleTerminal(TwoPointerOps(arr, target))
  {
    PairFromFits(arr, target, 0, |arr| - 1);
    AllPairOpsFitInBounds(TwoPointerOps(arr, target), arr, target);
    PairFromTerminates(arr, target, 0, |arr| - 1);
  }

  /** Pair `k` of `t` is a MOVE_POINTER `[l, r]` of two positions
      `0 <= l < r < |arr|`, followed by a COMPARE of the same positions
      carrying `arr[l] + arr[r]`. */
  predicate PointersAt(arr: seq<int>, t: seq<Op>, k: nat) {
    && 2 * k + 1 < |t|
    && t[2 * k].kind == MovePointer && t[2 * k].value == None
    && IsPair(t[2 * k].indices, |arr|)
    && var l, r := t[2 * k].indices[0], t[2 * k].indices[1];
       t[2 * k + 1] == Op(Compare, [l, r], Some(arr[l] + arr[r]))
  }

  /** The pointers of pair `k + 1` are those of pair `k` with one of them
      moved by one: `left` up when the sum was below the target, `right` down
      when it was above. */
  predicate MovesAt(arr: seq<int>, t: seq<Op>, k: nat, target: int) {
    && PointersAt(arr, t, k) && PointersAt(arr, t, k + 1)
    && var l, r := t[2 * k].indices[0], t[2 * k].indices[1];
       var l2, r2 := t[2 * k + 2].indices[0], t[2 * k + 2].indices[1];
       && arr[l] + arr[r] != target
       && (arr[l] + arr[r] < target ==> l2 == l + 1 && r2 == r)
       && (arr[l] + arr[r] > target ==> l2 == l && r2 == r - 1)
  }

  /** After `p` pairs the trace ends: with NOT_FOUND at once when there is no
      pair; otherwise with FOUND at the last pair when its sum is the target,
      or with NOT_FOUND when moving past it makes the pointers meet. */
  predicate EndsAt(arr: seq<int>, t: seq<Op>, p: nat, target: int) {
    && |t| == 2 * p + 1
    && (p == 0 ==> t[0] == NotFoundOp)
    && (p > 0 ==>
          && PointersAt(arr, t, p - 1)
          && var l, r := t[2 * p - 2].indices[0], t[2 * p - 2].indices[1];
             if arr[l] + arr[r] == target then t[2 * p] == Op(Found, [l, r], None)
             else
               && t[2 * p] == NotFoundOp
               && (arr[l] + arr[r] < target ==> l + 1 == r)
               && (arr[l] + arr[r] > target ==> r - 1 == l))
  }

  /** `t` is what the loop emits from the pointers `left` and `right`: one
      pair per iteration, the first naming `[left, right]` itself, each next
      one with a single pointer moved, and the ending the last sum calls for. */
  predicate FollowsLoop(arr: seq<int>, t: seq<Op>, target: int, left: int, right: int) {
    var p := |t| / 2;
    && EndsAt(arr, t, p, target)
    && (p > 0 <==> left < right)
    && (p > 0 ==> PointersAt(arr, t, 0) && t[0].indices == [left, right])
    && (forall k :: 0 <= k < p ==> PointersAt(arr, t, k))
    && (forall k :: 0 <= k < p - 1 ==> MovesAt(arr, t, k, target))
  }

  lemma PointersShift(arr: seq<int>, head: seq<Op>, rest: seq<Op>, k: nat)
    requires |head| == 2
    ensures PointersAt(arr, head + rest, k + 1) == PointersAt(arr, rest, k)
  {
    if 2 * k + 1 < |rest| {
      assert (head + rest)[2 * (k + 1)] == rest[2 * k];
      assert (head + rest)[2 * (k + 1) + 1] == rest[2 * k + 1];
    }
  }

  lemma MovesShift(arr: seq<int>, head: seq<Op>, rest: seq<Op>, k: nat, target: int)
    requires |head| == 2
    ensures MovesAt(arr, head + rest, k + 1, target) == MovesAt(arr, rest, k, target)
  {
    PointersShift(arr, head, rest, k);
    PointersShift(arr, head, rest, k + 1);
    if 2 * k + 3 < |rest| {
      assert (head + rest)[2 * (k + 1)] == rest[2 * k];
      assert (head + rest)[2 * (k + 1) + 2] == rest[2 * k + 2];
    }
  }

  lemma EndsShift(arr: seq<int>, head: seq<Op>, rest: seq<Op>, p: nat, target: int)
    requires |head| == 2 && p > 0
    requires EndsAt(arr, rest, p, target)
    ensures EndsAt(arr, head + rest, p + 1, target)
  {
    PointersShift(arr, head, rest, p - 1);
    assert (head + rest)[2 * p] == rest[2 * p - 2];
    assert (head + rest)[2 * (p + 1)] == rest[2 * p];
  }

  /** Every pair and move of `rest` reappears one pair later behind a
      two-operation head. */
  lemma ShiftAll(arr: seq<int>, head: seq<Op>, rest: seq<Op>, target: int)
    requires |head| == 2
    requires forall k :: 0 <= k < |rest| / 2 ==> PointersAt(arr, rest, k)
    requires forall k :: 0 <= k < |rest| / 2 - 1 ==> MovesAt(arr, rest, k, target)
    ensures forall k :: 1 <= k < |rest| / 2 + 1 ==> PointersAt(arr, head + rest, k)
    ensures forall k :: 1 <= k < |rest| / 2 ==> MovesAt(arr, head + rest, k, target)
  {
    forall k | 1 <= k < |rest| / 2 + 1 ensures PointersAt(arr, head + rest, k) {
      PointersShift(arr, head, rest, k - 1);
    }
    forall k | 1 <= k < |rest| / 2 ensures MovesAt(arr, head + rest, k, target) {
      MovesShift(arr, head, rest, k - 1, target);
    }
  }

  /** The first pair of `head + rest`, its link to the first pair of `rest`,
      and the ending carried over. */
  lemma MoveFirst(arr: seq<int>, target: int, left: nat, right: int, l2: int, r2: int, rest: seq<Op>)
    requires left < right < |arr|
    requires var sum := arr[left] + arr[right];
      && sum != target
      && (sum < target ==> l2 == left + 1 && r2 == right)
      && (sum > target ==> l2 == left && r2 == right - 1)
    requires FollowsLoop(arr, rest, target, l2, r2)
    ensures var t := ProbeOps(left, right, arr[left] + arr[right]) + rest;
      && PointersAt(arr, t, 0)
      && EndsAt(arr, t, |rest| / 2 + 1, target)
      && (|rest| / 2 > 0 ==> MovesAt(arr, t, 0, target))
  {
    var head := ProbeOps(left, right, arr[left] + arr[right]);
    var t := head + rest;
    var q := |rest| / 2;
    assert PointersAt(arr, t, 0);
    if q > 0 {
      PointersShift(arr, head, rest, 0);
      assert t[2] == rest[0];
      assert MovesAt(arr, t, 0, target);
      EndsShift(arr, head, rest, q, target);
    } else {
      assert rest == [NotFoundOp];
      assert t[2] == NotFoundOp;
    }
  }

  /** One iteration whose sum misses the target, followed by the loop from
      the moved pointers `l2, r2`, is the loop from `left, right`. */
  lemma MoveStep(arr: seq<int>, target: int, left: nat, right: int, l2: int, r2: int, rest: seq<Op>)
    requires left < right < |arr|
    requires var sum := arr[left] + arr[right];
      && sum != target
      && (sum < target ==> l2 == left + 1 && r2 == right)
      && (sum > target ==> l2 == left && r2 == right - 1)
    requires FollowsLoop(arr, rest, target, l2, r2)
    ensures FollowsLoop(arr, ProbeOps(left, right, arr[left] + arr[right]) + rest, target, left, right)
  {
    var head := ProbeOps(left, right, arr[left] + arr[right]);
    var t := head + rest;
    assert |t| / 2 == |rest| / 2 + 1;
    ShiftAll(arr, head, rest, target);
    MoveFirst(arr, target, left, right, l2, r2, rest);
  }

  /** One iteration whose sum is the target is the whole loop. */
  lemma HitStep(arr: seq<int>, target: int, left: nat, right: int)
    requires left < right < |arr| && arr[left] + arr[right] == target
    ensures FollowsLoop(arr, ProbeOps(left, right, target) + [Op(Found, [left, right], None)], target, left, right)
  {
    var t := ProbeOps(left, right, target) + [Op(Found, [left, right], None)];
    assert PointersAt(arr, t, 0);
    assert |t| / 2 == 1;
  }

  /** A pair whose sum misses the target unfolds to its probe pair and the
      loop from the pointers moved by one. */
  lemma MoveUnfold(arr: seq<int>, target: int, left: nat, right: int)
    requires left < right < |arr|
    ensures var sum := arr[left] + arr[right];
      sum < target ==> PairFrom(arr, target, left, right)
                       == ProbeOps(left, right, sum) + PairFrom(arr, target, left + 1, right)
    ensures var sum := arr[left] + arr[right];
      sum > target ==> PairFrom(arr, target, left, right)
                       == ProbeOps(left, right, sum) + PairFrom(arr, target, left, right - 1)
  {
    var after := AfterProbe(arr, target, left, right);
    PairFromUnfold(arr, target, left, right);
    if arr[left] + arr[right] < target {
      assert after == PairFrom(arr, target, left + 1, right);
    } else if arr[left] + arr[right] > target {
      assert after == PairFrom(arr, target, left, right - 1);
    }
  }

  /** A pair whose sum is the target unfolds to its probe pair and FOUND. */
  lemma HitUnfold(arr: seq<int>, target: int, left: nat, right: int)
    requires left < right < |arr| && arr[left] + arr[right] == target
    ensures PairFrom(arr, target, left, right)
            == ProbeOps(left, right, target) + [Op(Found, [left, right], None)]
  {
    PairFromUnfold(arr, target, left, right);
    assert AfterProbe(arr, target, left, right) == [Op(Found, [left, right], None)];
  }

  lemma {:induction false} PairFromFollowsLoop(arr: seq<int>, target: int, left: nat, right: int)
    requires right < |arr|
    ensures FollowsLoop(arr, PairFrom(arr, target, left, right), target, left, right)
    decreases right - left
  {
    if left < right {
      var sum := arr[left] + arr[right];
      if sum == target {
        HitStep(arr, target, left, right);
        HitUnfold(arr, target, left, right);
      } else if sum < target {
        PairFromFollowsLoop(arr, target, left + 1, right);
        MoveStep(arr, target, left, right, left + 1, right, PairFrom(arr, target, left + 1, right));
        MoveUnfold(arr, target, left, right);
      } else {
        PairFromFollowsLoop(arr, target, left, right - 1);
        MoveStep(arr, target, left, right, left, right - 1, PairFrom(arr, target, left, right - 1));
        MoveUnfold(arr, target, left, right);
      }
    } else {
      assert PairFrom(arr, target, left, right) == [NotFoundOp];
    }
  }

  /** The trace follows `generateTwoPointerOps` step by step, for every array
      and target: the first pair is `[0, n-1]`; each MOVE_POINTER names the
      pointers and the COMPARE after it names the same two positions with
      their sum; each next pair moves `left` up by one when the sum was below
      the target and `right` down by one when it was above; the trace ends
      with FOUND on the pair that meets the target and NOT_FOUND once the
      pointers meet. */
  lemma TwoPointerFollowsLoop(arr: seq<int>, target: int)
    ensures FollowsLoop(arr, TwoPointerOps(arr, target), target, 0, |arr| - 1)
  {
    PairFromFollowsLoop(arr, target, 0, |arr| - 1);
  }

  /** The trace on `[1, 2, 3]` for 5: the pair `[0, 2]` sums to 4, so `left`
      moves up, and `[1, 2]` sums to 5. */
  lemma OneTwoThreeForFive()
    ensures TwoPointerOps([1, 2, 3], 5)
      == [Op(MovePointer, [0, 2], None), Op(Compare, [0, 2], Some(4)),
          Op(MovePointer, [1, 2], None), Op(Compare, [1, 2], Some(5)),
          Op(Found, [1, 2], None)]
  {
  }

  /** On ascending input the trace ends with FOUND exactly when some pair of
      distinct positions sums to the target. */
  lemma TwoPointerComplete(arr: seq<int>, target: int)
    requires Sorted(arr)
    ensures var t := TwoPointerOps(arr, target);
      t[|t| - 1].kind == Found <==> HasPair(arr, target)
  {
    var t := TwoPointerOps(arr, target);
    TwoPointerSound(arr, target);
    PairFromComplete(arr, target, 0, |arr| - 1);
    assert PairOpFits(t[|t| - 1], arr, target);
  }

  /** At most `n - 1` probe pairs and one terminal operation: `O(n)`; with
      fewer than two elements the loop never runs. */
  lemma TwoPointerLinear(arr: seq<int>, target: int)
    ensures |arr| >= 2 ==> |TwoPointerOps(arr, target)| <= 2 * |arr| - 1
    ensures |arr| <= 1 ==> TwoPointerOps(arr, target) == [NotFoundOp]
  {
    PairFromLinear(arr, target, 0, |arr| - 1);
  }

  /** The trace stays within the array and ends with its only terminal
      operation; it ends with FOUND only when a pair sums to the target, and on
      ascending input exactly then. */
  predicate TraceSettles(arr: seq<int>, target: int, ops: seq<Op>) {
    && EndsWithSingleTerminal(ops) && IndicesBelow(ops, |arr|)
    && (ops[|ops| - 1].kind == Found ==> HasPair(arr, target))
    && (Sorted(arr) ==> (ops[|ops| - 1].kind == Found <==> HasPair(arr, target)))
  }

  lemma Conclude(arr: seq<int>, target: int, ops: seq<Op>)
    requires ops == PairFrom(arr, target, 0, |arr| - 1)
    ensures TraceSettles(arr, target, ops)
  {
    TwoPointerSound(arr, target);
    assert PairOpFits(ops[|ops| - 1], arr, target);
    if Sorted(arr) {
      TwoPointerComplete(arr, target);
    }
  }

  /** The loop appends a probe pair one operation at a time. */
  lemma Regroup(done: seq<Op>, a: Op, b: Op, after: seq<Op>, whole: seq<Op>)
    requires done + ([a, b] + after) == whole
    ensures done + [a] + [b] + after == whole
  {
    assert done + [a] + [b] == done + [a, b];
  }

  lemma PairStep(arr: seq<int>, target: int, left: nat, right: int, done: seq<Op>, whole: seq<Op>)
    requires left < right < |arr|
    requires done + PairFrom(arr, target, left, right) == whole
    ensures var sum := arr[left] + arr[right];
      var probe := done + [Op(MovePointer, [left, right], None)] + [Op(Compare, [left, right], Some(sum))];
      && (sum == target ==> probe + [Op(Found, [left, right], None)] == whole)
      && (sum < target ==> probe + PairFrom(arr, target, left + 1, right) == whole)
      && (sum > target ==> probe + PairFrom(arr, target, left, right - 1) == whole)
  {
    var sum := arr[left] + arr[right];
    var after := AfterProbe(arr, target, left, right);
    PairFromUnfold(arr, target, left, right);
    var probe := done + [Op(MovePointer, [left, right], None)] + [Op(Compare, [left, right], Some(sum))];
    Regroup(done, Op(MovePointer, [left, right], None), Op(Compare, [left, right], Some(sum)), after, whole);
    assert probe + after == whole;
    if sum == target {
      assert after == [Op(Found, [left, right], None)];
      assert probe + [Op(Found, [left, right], None)] == whole;
    } else if sum < target {
      assert after == PairFrom(arr, target, left + 1, right);
      assert probe + PairFrom(arr, target, left + 1, right) == whole;
    } else {
      assert after == PairFrom(arr, target, left, right - 1);
      assert probe + PairFrom(arr, target, left, right - 1) == whole;
    }
  }

  /** The loop of `generateTwoPointerOps` as written, with its early return. */
  method GenerateTwoPointerOps(arr: seq<int>, target: int) returns (ops: seq<Op>)
    ensures ops == TwoPointerOps(arr, target)
    ensures TraceSettles(arr, target, ops)
  {
    ghost var whole := PairFrom(arr, target, 0, |arr| - 1);
    ops := [];
    var left := 0;
    var right := |arr| - 1;
    while left < right
      invariant 0 <= left && right < |arr|
      invariant ops + PairFrom(arr, target, left, right) == whole
      decreases right - left
    {
      PairStep(arr, target, left, right, ops, whole);
      ops := ops + [Op(MovePointer, [left, right], None)];
      var sum := arr[left] + arr[right];
      ops := ops + [Op(Compare, [left, right], Some(sum))];
      if sum == target {
        ops := ops + [Op(Found, [left, right], None)];
        Conclude(arr, target, ops);
        return;
      } else if sum < target {
        left := left + 1;
      } else {
        right := right - 1;
      }
    }
    ops := ops + [NotFoundOp];
    assert ops == whole;
    Conclude(arr, target, ops);
  }
}
